=== FILE: README.md ===
# contree-cli, modelled in Dafny

contree-cli prints a project's source files as one text, to give an assistant
context after a command fails. It walks a directory (through the `ignore`
crate's walker), optionally keeps only the files a `--grep` pattern matches,
appends the files named with `--include`, and prints each file as a fenced
block headed `File: <path>`. With `-D` in a Rust project it also reads the
compiler output piped into it, runs `cargo tree`, and picks out the source
files of the used crates in the cargo registry that the errors point at.

This project models the selection and formatting rules inside that plumbing,
as pure functions over an abstract filesystem, and proves what they promise.

- `Outcomes`: `Option`, `Result`, and the `Failure`s that end a run.
- `Strings`: Rust's `trim` (Unicode White_Space), ASCII `to_lowercase`,
  substring search, `split` and `join` on a separator, `str::lines`.
- `Paths`: a path string as its lexical components, `file_name` and
  `extension` as `std::path` computes them.
- `FileSystem`: a map from component paths to nodes (valid UTF-8 text, a
  binary file, an unreadable file, a non-file), and the `Cargo.toml` test of
  `is_rust_project`.
- `Grep`: how a `--grep` pattern is classified (a `/.../` raw regex, or a
  case-insensitive literal) and what it matches.
- `Blocks`: the block `print_file` writes, with a parser that reads it back.
- `ProjectFiles`: `print_project_files`. It models the walk over the entries
  the walker yields, the `.git` and grep filters, and the include pass. It
  also models how `--include` is split at commas and trimmed.
- `CrateVersions`: the line parser of `get_used_crate_versions`, written as a
  small parser for `^\s*[├└]── (.+) v(\d+\.\d+\.\d+)`.
- `Dependencies`: `print_relevant_dependency_files`. It covers:
  - type names cut at `<`;
  - direct references kept only under `.cargo/registry`;
  - lowercase substring matching of types and macros;
  - a path-to-reasons map that only grows;
  - the `Cargo.toml` gate;
  - the filter that walks only the directories named by used crates.

A run that aborts is modelled by what it had written before the error and
the error itself (`Emission` in `ProjectFiles`). When `print_file` fails to
read a file, the header line and the opening fence it wrote first stay
written. That happens in the include pass and in a walk with no grep. Under
a grep, a walked file is read before `print_file` is reached, so a failed
read writes nothing of its block.

The directory walker, the
regex engine, the extraction regexes, `cargo tree` and the registry walk are
inputs:
- the walker's output is a sequence of entries;
- a raw regex is judged by a `RegexEngine` value of two uninterpreted
  functions;
- the captures of the extraction regexes are sequences of captured texts;
- the output of `cargo tree` is a string, or `None` when it could not be had;
- the registry walk is a sequence of directories, each with the paths its own
  walk yields.

A failure to run `cargo tree` ends the run (src/main.rs:254):
`Dependencies.Correlate` returns `Err(CargoTree)`.

`ProjectFiles.ProjectFiles` and `Dependencies.Correlate` follow the code as
written, including the two defects under "## Findings". Each has a twin that
uses the corrected definition: `ProjectFiles.ProjectFilesCorrected` and
`Dependencies.CorrelateCorrected`. Lemmas state where each twin differs from
the code as written.

## Model

| member | source | states |
|---|---|---|
| Grep.CompileGrepAsWritten | src/main.rs:134-143 | the classifier as written fails with the out-of-range slice exactly when the trimmed pattern is a lone "/" |
| Grep.CompileGrep | src/main.rs:134-143 | the only error is a rejected raw regex: the trimmed pattern is slash-delimited and the error names the text between the slashes; a literal matcher holds the trimmed pattern |
| Grep.RawPatternRoundTrip | src/main.rs:135-138 | a regex wrapped in slashes, with any whitespace around, compiles to exactly that regex, or fails naming it |
| Grep.LiteralPatternIsCaseless | src/main.rs:139-141 | any pattern that is not slash-delimited once trimmed matches a text exactly when the trimmed pattern occurs in it ignoring case |
| Grep.BlankPatternMatchesAll | src/main.rs:139-141 | a pattern that is all whitespace becomes the empty literal, which matches every text |
| Grep.LoneSlashPanics | src/main.rs:136-137 | `--grep /` aborts as written, and the corrected classifier searches for a literal "/" |
| Grep.CompileGrepAgrees | src/main.rs:134-143 | the corrected classifier never hits the slice error and agrees with the code on every other pattern |
| Blocks.Block | src/main.rs:110-123 | the run goes on exactly for text and binary files, whose block is the header, the fenced contents (or the `[binary file]` placeholder) and a blank line; any other read failure is the error naming the path, after the header line and opening fence, which are always written first; a block for a path with no line break parses back to that path and to the contents, or to the `[binary file]` placeholder |
| Blocks.ParseFormat | src/main.rs:110-123 | a block whose path has no line break parses back to its path and body |
| Blocks.FormatParse | src/main.rs:110-123 | whatever parses as a block is exactly the block of what it parsed to |
| FileSystem.HasManifestAbove | src/main.rs:98-107 | the search up the parents succeeds exactly when the directory or one of its ancestors holds a `Cargo.toml` |
| Paths.FileName | src/main.rs:278 | a file name is present exactly when the path has a last component other than ".."; it is that component |
| Paths.RustExtension | src/main.rs:277 | a file name has extension `rs` exactly when it is at least four characters long and ends in ".rs" |
| Paths.ComponentsOfDisplay | src/main.rs:164 | a normalised component path read back from its display string is that path |
| ProjectFiles.VisitFileSpec | src/main.rs:168-187 | one walked entry is printed as its block exactly when it is selected and readable; it ends the run exactly when it is an unreadable file outside `.git`, with the read error naming it; without a grep the block's header and opening fence are written first, while under a grep nothing of the block is written |
| ProjectFiles.WalkFilesSpec | src/main.rs:168-187 | the walk stops exactly at an error entry or an unreadable file; otherwise it prints the blocks of the selected entries in walk order |
| ProjectFiles.SelectedPaths | src/main.rs:160-187 | the selected paths are exactly the walked regular files with no `.git` component that have no grep, or are text the grep matches |
| ProjectFiles.BinaryUnderGrep | src/main.rs:174-179 | a binary file is dropped under a grep and printed with the placeholder without one |
| ProjectFiles.LiteralGrepSelection | src/main.rs:174-182 | under a literal grep a walked file is printed exactly when it is a text file outside `.git` containing the trimmed pattern ignoring case |
| ProjectFiles.ParseIncludeArg | src/main.rs:35-45 | the include argument becomes one path per comma-separated piece, in order: the i-th path is the i-th piece trimmed, and it is trimmed and comma-free |
| ProjectFiles.IncludeArgPadded | src/main.rs:35-45 | paths written with any whitespace padding between the commas are read back as the bare paths |
| ProjectFiles.IncludeArgRoundTrip | src/main.rs:43-45 | a list of trimmed, comma-free paths joined with commas is read back as that list |
| ProjectFiles.ExistingFiles | src/main.rs:190-201 | the included paths printed are exactly those that are regular files |
| ProjectFiles.MissingFiles | src/main.rs:192-195 | the included paths that are not regular files; with the printed ones they account for every listed path |
| ProjectFiles.MissingWarnings | src/main.rs:192-195 | the warnings are, in order, one per missing included path, each naming that path |
| ProjectFiles.IncludeFilesSpec | src/main.rs:190-201 | the include pass prints every existing file in list order with no de-duplication, warns about the rest, and stops only at an unreadable file |
| ProjectFiles.ProjectFilesSpec | src/main.rs:133-201 | a run that does not stop prints the selected walked files, then the included files, and warns about missing includes; it stops exactly at a pattern the classifier as written rejects (including a lone "/"), a walker error or an unreadable file; a rejected pattern stops it before anything is written |
| ProjectFiles.LoneSlashRun | src/main.rs:134-143 | `--grep /` ends the run as written and is a literal search in the corrected run; on every other pattern the two runs are identical |
| Strings.TrimUnique | src/main.rs:135 | trimming removes exactly the surrounding whitespace of a text that is trimmed in the middle |
| Strings.ContainsLowerIffCaseless | src/main.rs:140 | searching lowercased text for a lowercased needle finds exactly the case-insensitive occurrences |
| Strings.SplitJoin | src/main.rs:35 | splitting pieces joined with a separator they lack gives back the pieces |
| Strings.JoinSplit | src/main.rs:35 | joining the pieces of a split gives back the text |
| Strings.LinesUnlines | src/main.rs:347 | the lines of a text written line by line are the lines written |
| Strings.Before | src/main.rs:235 | the prefix before the first occurrence of a character, holding none of it |
| CrateVersions.VersionAtOf | src/main.rs:342 | `\d+\.\d+\.\d+` matches exactly the three digit runs when no digit follows |
| CrateVersions.SearchFinds | src/main.rs:342 | the greedy name match ends at the last position followed by ` v` and a version |
| CrateVersions.NameAndVersionOf | src/main.rs:342-351 | the name and version of a line are read as `name-version` when nothing after the version reads as another version |
| CrateVersions.TreeLineRoundTrip | src/main.rs:342-351 | a dependency line at any depth is read back as the crate's `name-version` id |
| CrateVersions.TreeLineAgrees | src/main.rs:342 | on a line indented with whitespace only, the corrected parser and the code read the same |
| CrateVersions.NestedLineMissed | src/main.rs:342 | a branch line indented with a `│` is ignored by the code but read by the corrected parser |
| CrateVersions.DependencyLineUsed | src/main.rs:346-355 | with the corrected parser, every dependency line of an output, at any depth, puts its `name-version` id among the used crates |
| CrateVersions.NestedCrateUnused | src/main.rs:342-355 | as written, a crate named only on a line indented with `│` is missing from the used crates, though the corrected reading has it |
| Dependencies.TypeName | src/main.rs:235 | a type name is the prefix of the capture before its first '<', and holds no '<' |
| Dependencies.TypeNameOfGeneric | src/main.rs:242-243 | a generic type is recorded by its bare name, and a non-generic one unchanged |
| Dependencies.InsertTypeNames | src/main.rs:234-237 | after the "method not found" loop the set holds exactly the earlier types and the type names of the captures |
| Dependencies.InsertPairNames | src/main.rs:241-246 | after the expected/found loop the set holds exactly the earlier types and the type names of both sides of every pair |
| Dependencies.InsertMacros | src/main.rs:238-240 | after the macro loop the set holds exactly the earlier macros and the captured names |
| Dependencies.CollectTypesSpec | src/main.rs:234-246 | the recorded types are exactly the cut type names of both kinds of capture, and none holds '<' |
| Dependencies.PairSidesRecorded | src/main.rs:241-246 | both sides of every expected/found pair are recorded |
| Dependencies.Record | src/main.rs:219-222 | inserting a reason adds it to the path's entry, creating it if needed, and changes nothing else |
| Dependencies.AddReasons | src/main.rs:286-300 | recording a set of reasons adds them to the path's entry, makes no entry when there is none, and changes nothing else |
| Dependencies.AddReasonsTwice | src/main.rs:286-300 | recording two sets of reasons in turn records their union |
| Dependencies.DirectRefs | src/main.rs:214-224 | a captured path is recorded as `directly referenced` exactly when it contains ".cargo/registry"; the map only grows |
| Dependencies.ReasonsDistinct | src/main.rs:286-300 | `type T`, `macro M` and `directly referenced` never coincide, and each determines its name |
| Dependencies.FileReasonsSpec | src/main.rs:282-302 | a file gets `type T` exactly for recorded types its lowercased name or contents contain, `macro M` exactly for recorded macros it defines, and nothing else |
| Dependencies.UppercaseMacroNeverMatches | src/main.rs:295 | a macro name holding an upper-case letter never matches |
| Dependencies.EmptyTypeMatchesEveryFile | src/main.rs:282-291 | a capture such as "<T>" records the empty type name, which every examined file hits |
| Dependencies.TypeLoopAnyOrder | src/main.rs:282-291 | the type loop records the same reasons whatever the iteration order |
| Dependencies.MacroLoopAnyOrder | src/main.rs:294-302 | the macro loop records the same reasons whatever the iteration order |
| Dependencies.FileLoopsAnyOrder | src/main.rs:282-302 | the two per-file loops over any enumeration of the sets record exactly the file's reasons |
| Dependencies.ScanFiles | src/main.rs:272-303 | scanning a crate directory adds each walked `.rs` file's reasons and nothing else; the map only grows |
| Dependencies.ScanRegistry | src/main.rs:264-307 | only the walks of directories named by a used crate id are scanned; the map only grows |
| Dependencies.CorrelateIds | src/main.rs:248-311 | outside a Rust project nothing is printed, even direct references; in one, the run ends when `cargo tree` could not be run or its output was not UTF-8; a printed section is never empty and has no empty entry |
| Dependencies.Correlate | src/main.rs:248-311 | the same for the program, which reads the crate ids with the line regex as written |
| Dependencies.CorrelateCorrected | src/main.rs:248-311 | the same with the corrected line parser |
| Dependencies.CorrelateIdsSpec | src/main.rs:212-311 | given the used crate ids, the section is printed exactly when some path has a reason, and gives every path exactly its direct and registry reasons |
| Dependencies.CorrelateSpec | src/main.rs:212-311 | the program's section holds exactly the direct reasons and the reasons of the crates that the line regex as written reads from the output |
| Dependencies.CorrelateCorrectedSpec | src/main.rs:212-311 | the corrected section holds exactly the direct reasons and the reasons of every crate on a dependency line |
| Dependencies.DirectlyReferenced | src/main.rs:214-224 | a path is `directly referenced` exactly when the output points at it and it lies under the cargo registry |
| Dependencies.TypeReasonExact | src/main.rs:277-291 | a path gets `type T` exactly when it is a `.rs` file in a used crate's walk that hits a recorded type |
| Dependencies.MacroReasonExact | src/main.rs:277-302 | a path gets `macro M` exactly when it is a `.rs` file in a used crate's walk that defines a captured macro |

## Left out

- Write errors: each `writeln!` in `print_file` (src/main.rs:111-121) can fail and end the run; the model takes every write to succeed, so `Block` and `Emission` have no failure for it.
- Reading stdin and echoing it (src/main.rs:63-80), creating and flushing the writer, and the order in which `main` calls the passes: I/O plumbing. The piped text is modelled only through the captures taken from it.
- The `ignore` walker's rules for `.gitignore`, `.contreeignore`, hidden files and `--max-depth` (src/main.rs:146-157): library behaviour. The walk is an input sequence of entries.
- Raw regex semantics, and the regex crate's size limit on a compiled literal: a raw pattern is judged by the uninterpreted `RegexEngine`, and every escaped literal is taken to compile.
- The extraction regexes of the dependency pass (src/main.rs:215-229): their captures are inputs.
- Spawning `cargo tree` and checking that its output is UTF-8 (src/main.rs:331-339): the output is an input, `None` when it could not be had.
- The `CARGO_HOME`/`HOME` lookups and the `WalkDir` registry traversal (src/main.rs:257-279): the registry walk is an input sequence of directories and their walks.
- Printing the dependency section (src/main.rs:310-322): `HashMap` and `HashSet` iteration order is unspecified, and the text of a read error comes from the OS. The section is the reasons map, or `None` when it is not printed.
- Symbolic links and ".." in paths: path components are compared lexically.
- Non-UTF-8 names: `to_str().unwrap()` panics on a registry directory or file name that is not valid UTF-8 (src/main.rs:270, 278, 285). Paths here are Dafny strings, so every name is valid and those panics are not modelled.
- Strings.Lower: lowercases ASCII letters only, where Rust's `to_lowercase` and the regex `(?i)` fold all of Unicode.
- CrateVersions.VersionAtOf: digits are ASCII digits, where the regex's `\d` accepts every Unicode decimal digit.
- A file's contents are read once; the code reads a file again to print it after the grep read.

## Findings

| source | as written | input that shows it | evidently intended | confidence | as-written member | corrected member |
|---|---|---|---|---|---|---|
| src/main.rs:136-137 | a trimmed pattern that starts and ends with '/' is sliced `[1..len - 1]`, and a lone "/" does both | `--grep /` | a raw regex needs two delimiting slashes; a lone "/" is searched for as a literal | not executed | Grep.LoneSlashPanics | Grep.CompileGrep |
| src/main.rs:342 | only whitespace may come before the branch glyph | the `cargo tree` line "│   └── libc v0.2.155" (a child of a parent with later siblings) | every dependency line is read, at any depth, so its crate directory is searched | not executed | CrateVersions.NestedLineMissed | CrateVersions.TreeLineRoundTrip |

=== FILE: blocks.dfy ===
/** The block `print_file` writes for one file: a `File:` header line, then
    the body inside a three-backtick fence, then a blank line. */
module Blocks {
  import opened Strings
  import opened Outcomes
  import opened FileSystem

  /** What stands in for the contents of a file that is not valid UTF-8. */
  const BinaryPlaceholder: string := "[binary file]"

  const Header: string := "File: "
  const Open: string := "```\n"
  const Close: string := "\n```\n\n"

  function FormatBlock(display: string, body: string): string {
    Header + display + "\n" + Open + body + Close
  }

  /** Reads a block back into its path and body; `None` for text that is
      not a block. */
  function ParseBlock(b: string): Option<(string, string)> {
    if |b| < |Header| || b[..|Header|] != Header then None
    else
      var rest := b[|Header|..];
      var k := IndexOf(rest, '\n');
      if k == |rest| then None
      else
        var after := rest[k + 1..];
        if |after| < |Open| + |Close| || after[..|Open|] != Open || after[|after| - |Close|..] != Close then None
        else Some((rest[..k], after[|Open|..|after| - |Close|]))
  }

  /** A block whose path has no line break gives back its path and body. */
  lemma ParseFormat(display: string, body: string)
    requires '\n' !in display
    ensures ParseBlock(FormatBlock(display, body)) == Some((display, body))
  {
    var b := FormatBlock(display, body);
    var tail := Open + body + Close;
    var rest := display + "\n" + tail;
    assert b == Header + rest;
    assert b[..|Header|] == Header;
    assert b[|Header|..] == rest;
    IndexOfFirstLine(display, tail);
    var after := rest[|display| + 1..];
    assert after == Open + body + Close;
    assert after[..|Open|] == Open;
    assert after[|after| - |Close|..] == Close;
    assert after[|Open|..|after| - |Close|] == body;
    assert rest[..|display|] == display;
    assert IndexOf(rest, '\n') == |display| < |rest|;
  }

  /** Whatever reads as a block is exactly the block of what it read as. */
  lemma FormatParse(b: string)
    requires ParseBlock(b).Some?
    ensures FormatBlock(ParseBlock(b).value.0, ParseBlock(b).value.1) == b
    ensures '\n' !in ParseBlock(b).value.0
  {
    var rest := b[|Header|..];
    var k := IndexOf(rest, '\n');
    var after := rest[k + 1..];
    var display := rest[..k];
    var body := after[|Open|..|after| - |Close|];
    assert after == Open + body + Close by {
      Pieces(after, |Open|, |after| - |Close|);
    }
    assert rest == display + "\n" + after by {
      Pieces(rest, k, k + 1);
    }
    assert b == Header + rest by {
      Pieces(b, |Header|, |Header|);
    }
    Regroup(Header, display, Open, body, Close);
  }

  /** A text is its three slices at `i` and `j` put back together. */
  lemma Pieces(x: string, i: nat, j: nat)
    requires i <= j <= |x|
    ensures x == x[..i] + x[i..j] + x[j..]
  {
  }

  lemma Regroup(h: string, d: string, o: string, body: string, c: string)
    ensures h + d + "\n" + o + body + c == h + (d + "\n" + (o + body + c))
  {
  }

  /** The body `print_file` writes for a node, if it can read one. */
  function Body(n: Node): Option<string> {
    match n
    case Text(s) => Some(s)
    case Binary => Some(BinaryPlaceholder)
    case _ => None
  }

  /** What `print_file` writes before it reads the file: the header line
      and the opening fence. */
  function Opening(display: string): string {
    Header + display + "\n" + Open
  }

  /** What `print_file` leaves on the writer, and the read error that ends
      the run, if one did. */
  datatype Printed = Printed(text: string, failure: Option<Failure>)

  /** `print_file`: the block for the file at `display`; when the read fails
      the header and the opening fence are already written. */
  function Block(display: string, n: Node): (r: Printed)
    ensures r.failure.None? <==> n.Text? || n.Binary?
    ensures r.failure.Some? ==> r.failure.value == ReadFile(display) && r.text == Opening(display)
    ensures Opening(display) <= r.text
    ensures r.failure.None? ==> r.text == FormatBlock(display, if n.Text? then n.contents else BinaryPlaceholder)
    ensures r.failure.None? && '\n' !in display ==>
              ParseBlock(r.text) == Some((display, if n.Text? then n.contents else BinaryPlaceholder))
  {
    match Body(n)
    case Some(body) =>
      OpeningStartsBlock(display, body);
      assert '\n' !in display ==> ParseBlock(FormatBlock(display, body)) == Some((display, body)) by {
        if '\n' !in display {
          ParseFormat(display, body);
        }
      }
      Printed(FormatBlock(display, body), None)
    case None => Printed(Opening(display), Some(ReadFile(display)))
  }

  lemma OpeningStartsBlock(display: string, body: string)
    ensures FormatBlock(display, body) == Opening(display) + (body + Close)
  {
  }
}

=== FILE: crate_versions.dfy ===
/** `get_used_crate_versions`: the `name-X.Y.Z` ids read off the lines of
    `cargo tree` output that match `^\s*[├└]── (.+) v(\d+\.\d+\.\d+)`. */
module CrateVersions {
  import opened Strings
  import opened Outcomes

  predicate IsDigit(c: char) {
    '0' <= c <= '9'
  }

  predicate AllDigits(s: string) {
    forall i :: 0 <= i < |s| ==> IsDigit(s[i])
  }

  /** Length of the run of digits `s` starts with (`\d+`, greedy). */
  function DigitRun(s: string): (k: nat)
    ensures k <= |s| && AllDigits(s[..k])
    ensures k == |s| || !IsDigit(s[k])
  {
    if s != [] && IsDigit(s[0]) then
      var k := 1 + DigitRun(s[1..]);
      assert s[..k] == [s[0]] + s[1..][..k - 1];
      k
    else 0
  }

  /** A run of digits followed by a non-digit is exactly that long. */
  lemma DigitRunOf(digits: string, tail: string)
    requires AllDigits(digits)
    requires tail == [] || !IsDigit(tail[0])
    ensures DigitRun(digits + tail) == |digits|
  {
    var s := digits + tail;
    assert forall i :: 0 <= i < |digits| ==> s[i] == digits[i];
    assert |digits| < |s| ==> s[|digits|] == tail[0];
    var k := DigitRun(s);
    assert forall i :: 0 <= i < k ==> s[..k][i] == s[i];
  }

  /** `\d+\.` at the start of `s`: the length it matches. */
  function DottedRun(s: string): (r: Option<nat>)
    ensures r.Some? ==> 2 <= r.value <= |s|
  {
    var a := DigitRun(s);
    if a == 0 || a == |s| || s[a] != '.' then None else Some(a + 1)
  }

  /** `\d+\.\d+\.\d+` at the start of `s`: the version text it matches. */
  function VersionAt(s: string): (r: Option<string>)
    ensures r.Some? ==> |r.value| <= |s| && r.value == s[..|r.value|]
  {
    match DottedRun(s)
    case None => None
    case Some(i) =>
      var minor := s[i..];
      match DottedRun(minor)
      case None => None
      case Some(j) =>
        var c := DigitRun(minor[j..]);
        if c == 0 then None else Some(s[..i + j + c])
  }

  /** A run of digits, a '.', and whatever follows: `\d+\.` matched, the
      rest left. */
  lemma DottedRunOf(digits: string, rest: string)
    requires |digits| > 0 && AllDigits(digits)
    ensures DottedRun(digits + "." + rest) == Some(|digits| + 1)
    ensures (digits + "." + rest)[|digits| + 1..] == rest
  {
    assert digits + "." + rest == digits + ("." + rest);
    DigitRunOf(digits, "." + rest);
  }

  /** The version of the line is `major.minor.patch`, each a non-empty run of
      digits, when what follows does not start with a digit. */
  lemma VersionAtOf(major: string, minor: string, patch: string, tail: string)
    requires |major| > 0 && |minor| > 0 && |patch| > 0
    requires AllDigits(major) && AllDigits(minor) && AllDigits(patch)
    requires tail == [] || !IsDigit(tail[0])
    ensures VersionAt(major + "." + minor + "." + patch + tail) == Some(major + "." + minor + "." + patch)
  {
    var t3 := patch + tail;
    var t2 := minor + "." + t3;
    var s := major + "." + t2;
    DottedRunOf(major, t2);
    DottedRunOf(minor, t3);
    DigitRunOf(patch, tail);
    VersionAtFrom(s, |major| + 1, |minor| + 1, |patch|);
    VersionSplit(major, minor, patch, tail);
  }

  /** The version text and what follows, regrouped. */
  lemma VersionSplit(major: string, minor: string, patch: string, tail: string)
    ensures var s := major + "." + (minor + "." + (patch + tail));
            && s == major + "." + minor + "." + patch + tail
            && s[..|major| + 1 + |minor| + 1 + |patch|] == major + "." + minor + "." + patch
  {
    var version := major + "." + minor + "." + patch;
    var s := major + "." + (minor + "." + (patch + tail));
    assert s == version + tail;
    assert s[..|version|] == version;
  }

  lemma VersionAtFrom(s: string, i: nat, j: nat, c: nat)
    requires i <= |s| && DottedRun(s) == Some(i)
    requires j <= |s[i..]| && DottedRun(s[i..]) == Some(j)
    requires DigitRun(s[i..][j..]) == c > 0
    ensures VersionAt(s) == Some(s[..i + j + c])
  {
  }

  /** No space occurs in a version. */
  lemma NoSpaceInVersion(major: string, minor: string, patch: string)
    requires AllDigits(major) && AllDigits(minor) && AllDigits(patch)
    ensures ' ' !in major + "." + minor + "." + patch
  {
    assert ' ' !in major && ' ' !in minor && ' ' !in patch;
  }

  /** ` v` followed by a version. */
  function TaggedVersionAt(s: string): Option<string> {
    if |s| >= 2 && s[0] == ' ' && s[1] == 'v' then VersionAt(s[2..]) else None
  }

  /** ` v` and a version after the first `j` characters of `rest`. */
  function TagAt(rest: string, j: nat): Option<string> {
    if j <= |rest| then TaggedVersionAt(rest[j..]) else None
  }

  function Tags(rest: string): nat -> Option<string> {
    (j: nat) => TagAt(rest, j)
  }

  /** `(.+) v(\d+\.\d+\.\d+)` at the start of `rest`, trying the longest
      name first, as the greedy `.+` does; the id is `name-version`. */
  function NameAndVersion(rest: string): Option<string> {
    SearchFrom(Tags(rest), rest, |rest|)
  }

  /** The names `rest[..k]`, `rest[..k - 1]`, ... in turn, until one is
      followed by a tag. */
  function SearchFrom(tag: nat -> Option<string>, rest: string, k: nat): Option<string>
    requires k <= |rest|
  {
    if k == 0 then None
    else match tag(k)
      case Some(v) => Some(rest[..k] + "-" + v)
      case None => SearchFrom(tag, rest, k - 1)
  }

  /** The search passes over every split with no tag after it. */
  lemma {:induction false} SearchFromSkips(tag: nat -> Option<string>, rest: string, k: nat, stop: nat)
    requires 0 < stop <= k <= |rest|
    requires forall j :: stop < j <= k ==> tag(j).None?
    ensures SearchFrom(tag, rest, k) == SearchFrom(tag, rest, stop)
    decreases k
  {
    if k > stop {
      SearchFromSkips(tag, rest, k - 1, stop);
    }
  }

  const Dashes: string := ['\U{2500}', '\U{2500}', ' ']

  predicate IsBranch(c: char) {
    c == '\U{251C}' || c == '\U{2514}'
  }

  /** `[├└]── ` followed by the rest of the match. */
  function AfterBranch(s: string): Option<string> {
    if |s| >= 4 && IsBranch(s[0]) && s[1..4] == Dashes then NameAndVersion(s[4..]) else None
  }

  /** The line parser as the program writes it: only whitespace may come
      before the branch glyph. */
  function TreeLineAsWritten(line: string): Option<string> {
    AfterBranch(TrimStart(line))
  }

  /** What `cargo tree` draws before a branch glyph: spaces, and the '│' of
      every ancestor that has later siblings. */
  predicate IsIndent(c: char) {
    IsWhitespace(c) || c == '\U{2502}'
  }

  function SkipIndent(s: string): (r: string)
    ensures |r| <= |s| && r == s[|s| - |r|..]
    ensures r == [] || !IsIndent(r[0])
  {
    if |s| > 0 && IsIndent(s[0]) then SkipIndent(s[1..]) else s
  }

  lemma {:induction false} SkipIndentOf(indent: string, s: string)
    requires forall i :: 0 <= i < |indent| ==> IsIndent(indent[i])
    requires s == [] || !IsIndent(s[0])
    ensures SkipIndent(indent + s) == s
  {
    if indent == [] {
      assert indent + s == s;
    } else {
      assert (indent + s)[1..] == indent[1..] + s;
      SkipIndentOf(indent[1..], s);
    }
  }

  /** The line parser with `│` allowed in the indentation, so that every
      dependency line of the tree is read, at any depth. */
  function TreeLine(line: string): Option<string> {
    AfterBranch(SkipIndent(line))
  }

  /** A line whose indentation is whitespace only is read the same by both. */
  lemma TreeLineAgrees(line: string)
    requires TrimStart(line) == [] || TrimStart(line)[0] != '\U{2502}'
    ensures TreeLineAsWritten(line) == TreeLine(line)
  {
    var n := |line| - |TrimStart(line)|;
    assert line == line[..n] + TrimStart(line);
    SkipIndentOf(line[..n], TrimStart(line));
  }

  /** The splits inside `tail` are those of `tail` itself. */
  lemma NoTagInTail(front: string, tail: string)
    requires forall j :: 0 <= j <= |tail| ==> TaggedVersionAt(tail[j..]).None?
    ensures forall j :: |front| <= j <= |front + tail| ==> TaggedVersionAt((front + tail)[j..]).None?
  {
    forall j | |front| <= j <= |front + tail| ensures TaggedVersionAt((front + tail)[j..]).None? {
      assert (front + tail)[j..] == tail[j - |front|..];
    }
  }

  /** Past the ` ` of ` v`, a name, the tag and a version hold no space. */
  lemma NoSpaceAfterTag(name: string, version: string)
    requires ' ' !in version
    ensures ' ' !in (name + " v" + version)[|name| + 1..]
  {
    assert (name + " v" + version)[|name| + 1..] == "v" + version;
  }

  /** The search stops at the last split followed by a version. */
  lemma SearchFinds(rest: string, at: nat, v: string)
    requires 0 < at <= |rest| && TaggedVersionAt(rest[at..]) == Some(v)
    requires forall j :: at < j <= |rest| ==> TaggedVersionAt(rest[j..]).None?
    ensures NameAndVersion(rest) == Some(rest[..at] + "-" + v)
  {
    SearchFromSkips(Tags(rest), rest, |rest|, at);
  }

  /** No split inside a stretch without spaces is followed by ` v`. */
  lemma NoTagWithoutSpace(front: string, tail: string, lo: nat)
    requires lo <= |front| && ' ' !in front[lo..]
    ensures forall j :: lo <= j < |front| ==> TaggedVersionAt((front + tail)[j..]).None?
  {
    forall j | lo <= j < |front| ensures TaggedVersionAt((front + tail)[j..]).None? {
      assert (front + tail)[j..][0] == front[lo..][j - lo];
      assert (front + tail)[j..][0] != ' ';
    }
  }

  /** Right after the name comes the tagged version. */
  lemma TagAfterName(name: string, version: string, tail: string)
    requires VersionAt(version + tail) == Some(version)
    ensures TaggedVersionAt((name + " v" + version + tail)[|name|..]) == Some(version)
  {
    var s := (name + " v" + version + tail)[|name|..];
    assert s[0] == ' ' && s[1] == 'v';
    assert s[2..] == version + tail;
  }

  /** The greedy search finds the name before the last ` vX.Y.Z` of the text. */
  lemma NameAndVersionOf(name: string, version: string, tail: string)
    requires |name| > 0 && ' ' !in version
    requires VersionAt(version + tail) == Some(version)
    requires forall j :: 0 <= j <= |tail| ==> TaggedVersionAt(tail[j..]).None?
    ensures NameAndVersion(name + " v" + version + tail) == Some(name + "-" + version)
  {
    var front := name + " v" + version;
    var rest := front + tail;
    assert rest[..|name|] == name;
    TagAfterName(name, version, tail);
    NoSpaceAfterTag(name, version);
    NoTagWithoutSpace(front, tail, |name| + 1);
    NoTagInTail(front, tail);
    SearchFinds(rest, |name|, version);
  }

  /** After the branch glyph and its dashes comes the name and version. */
  lemma AfterBranchOf(branch: char, rest: string)
    requires IsBranch(branch)
    ensures AfterBranch([branch] + Dashes + rest) == NameAndVersion(rest)
  {
    var s := [branch] + Dashes + rest;
    assert s[1..4] == Dashes;
    assert s[4..] == rest;
  }

  /** The parts of a `cargo tree` dependency line
      `indent + branch + "── " + name + " v" + major.minor.patch + tail`:
      indentation, a branch glyph, a non-empty name, three digit runs, and
      a tail that neither extends the patch number nor holds another
      ` vX.Y.Z`. */
  predicate DependencyLine(indent: string, branch: char, name: string,
                           major: string, minor: string, patch: string, tail: string)
  {
    && (forall i :: 0 <= i < |indent| ==> IsIndent(indent[i]))
    && IsBranch(branch)
    && |name| > 0
    && |major| > 0 && |minor| > 0 && |patch| > 0
    && AllDigits(major) && AllDigits(minor) && AllDigits(patch)
    && (tail == [] || !IsDigit(tail[0]))
    && (forall j :: 0 <= j <= |tail| ==> TaggedVersionAt(tail[j..]).None?)
  }

  /** A dependency line, however deep, gives back `name-version`, provided
      nothing after the version reads as another ` vX.Y.Z`. */
  lemma TreeLineRoundTrip(indent: string, branch: char, name: string,
                          major: string, minor: string, patch: string, tail: string)
    requires DependencyLine(indent, branch, name, major, minor, patch, tail)
    ensures TreeLine(indent + ([branch] + Dashes + (name + " v" + (major + "." + minor + "." + patch) + tail)))
            == Some(name + "-" + (major + "." + minor + "." + patch))
  {
    var version := major + "." + minor + "." + patch;
    var rest := name + " v" + version + tail;
    var glyphs := [branch] + Dashes + rest;
    SkipIndentOf(indent, glyphs);
    AfterBranchOf(branch, rest);
    VersionAtOf(major, minor, patch, tail);
    NoSpaceInVersion(major, minor, patch);
    NameAndVersionOf(name, version, tail);
  }

  /** A branch line below a parent that has later siblings starts with that
      parent's '│' (as in "│   └── libc v0.2.155"): the program ignores
      it, so its crate is never searched for, while `TreeLine` reads it. */
  lemma NestedLineMissed(indent: string, branch: char, name: string,
                         major: string, minor: string, patch: string, tail: string)
    requires |indent| > 0 && indent[0] == '\U{2502}'
    requires DependencyLine(indent, branch, name, major, minor, patch, tail)
    ensures TreeLineAsWritten(indent + ([branch] + Dashes + (name + " v" + (major + "." + minor + "." + patch) + tail)))
            == None
    ensures TreeLine(indent + ([branch] + Dashes + (name + " v" + (major + "." + minor + "." + patch) + tail)))
            == Some(name + "-" + (major + "." + minor + "." + patch))
  {
    var line := indent + ([branch] + Dashes + (name + " v" + (major + "." + minor + "." + patch) + tail));
    assert line[0] == '\U{2502}';
    assert TrimStart(line) == line;
    TreeLineRoundTrip(indent, branch, name, major, minor, patch, tail);
  }

  /** The ids of the matching lines of the `cargo tree` output. */
  function UsedCrateVersions(output: string): (r: set<string>)
    ensures forall id :: id in r <==> exists line :: line in Lines(output) && TreeLine(line) == Some(id)
  {
    var ls := Lines(output);
    set i | 0 <= i < |ls| && TreeLine(ls[i]).Some? :: TreeLine(ls[i]).value
  }

  function UsedCrateVersionsAsWritten(output: string): (r: set<string>)
    ensures forall id :: id in r <==> exists line :: line in Lines(output) && TreeLineAsWritten(line) == Some(id)
  {
    var ls := Lines(output);
    set i | 0 <= i < |ls| && TreeLineAsWritten(ls[i]).Some? :: TreeLineAsWritten(ls[i]).value
  }

  /** A `cargo tree` output written line by line, whose lines hold no line
      break and do not end in '\r'. */
  predicate PlainLines(ls: seq<string>) {
    forall i :: 0 <= i < |ls| ==> '\n' !in ls[i] && (ls[i] == [] || ls[i][|ls[i]| - 1] != '\r')
  }

  /** Every dependency line of the output, at any depth, puts its crate's
      `name-version` id among the used ones. */
  lemma DependencyLineUsed(ls: seq<string>, k: nat, indent: string, branch: char, name: string,
                           major: string, minor: string, patch: string, tail: string)
    requires PlainLines(ls) && k < |ls|
    requires ls[k] == indent + ([branch] + Dashes + (name + " v" + (major + "." + minor + "." + patch) + tail))
    requires DependencyLine(indent, branch, name, major, minor, patch, tail)
    ensures name + "-" + (major + "." + minor + "." + patch) in UsedCrateVersions(Unlines(ls))
  {
    LinesUnlines(ls);
    TreeLineRoundTrip(indent, branch, name, major, minor, patch, tail);
    assert ls[k] in Lines(Unlines(ls));
  }

  /** As the program reads the output, a crate that appears only on lines
      indented with '│' is not among the used ones, though the corrected
      reading has it. */
  lemma NestedCrateUnused(ls: seq<string>, k: nat, indent: string, branch: char, name: string,
                          major: string, minor: string, patch: string, tail: string)
    requires PlainLines(ls) && k < |ls|
    requires ls[k] == indent + ([branch] + Dashes + (name + " v" + (major + "." + minor + "." + patch) + tail))
    requires |indent| > 0 && indent[0] == '\U{2502}'
    requires DependencyLine(indent, branch, name, major, minor, patch, tail)
    requires forall i :: 0 <= i < |ls| && i != k ==>
               TreeLineAsWritten(ls[i]) != Some(name + "-" + (major + "." + minor + "." + patch))
    ensures name + "-" + (major + "." + minor + "." + patch) !in UsedCrateVersionsAsWritten(Unlines(ls))
    ensures name + "-" + (major + "." + minor + "." + patch) in UsedCrateVersions(Unlines(ls))
  {
    LinesUnlines(ls);
    NestedLineMissed(indent, branch, name, major, minor, patch, tail);
    DependencyLineUsed(ls, k, indent, branch, name, major, minor, patch, tail);
    var id := name + "-" + (major + "." + minor + "." + patch);
    forall line | line in Lines(Unlines(ls)) ensures TreeLineAsWritten(line) != Some(id) {
      var i :| 0 <= i < |ls| && ls[i] == line;
    }
  }
}

=== FILE: dependencies.dfy ===
/** `print_relevant_dependency_files`: which source files of the crates a
    project uses are relevant to the compiler output, and why. The three
    extraction regexes are given: their captures come in as sequences of
    captured texts, in the order they occur in the output. */
module Dependencies {
  import opened Strings
  import opened Outcomes
  import opened Paths
  import opened FileSystem
  import opened CrateVersions

  /** One "expected `A`, found `B`" of the output. */
  datatype Mismatch = Mismatch(expected: string, found: string)

  /** The captures of the compiler output.
      `direct`: the path of every `--> path.rs:L:C`;
      `methodNotFound`: the type of every "method not found in `T`";
      `macroOrigins`: the macro of every "this error originates in the macro `M`";
      `mismatches`: every "expected `A`, found `B`". */
  datatype Captures = Captures(direct: seq<string>, methodNotFound: seq<string>,
                               macroOrigins: seq<string>, mismatches: seq<Mismatch>)

  // ---------------------------------------------------------------------
  // Type and macro names

  /** `split('<').next().unwrap()`: the captured type up to its first '<'. */
  function TypeName(capture: string): (r: string)
    ensures '<' !in r
    ensures |r| <= |capture| && r == capture[..|r|]
    ensures |r| == |capture| || capture[|r|] == '<'
  {
    Before(capture, '<')
  }

  /** A generic type is recorded under its bare name, and a type with no
      arguments unchanged. */
  lemma TypeNameOfGeneric(name: string, args: string)
    requires '<' !in name
    ensures TypeName(name + "<" + args) == name
    ensures TypeName(name) == name
  {
    var s := name + "<" + args;
    var r := TypeName(s);
    assert s[|name|] == '<';
    assert forall i :: 0 <= i < |name| ==> s[i] == name[i];
    assert r == name;
  }

  /** Some capture in `captures` has type name `t`. */
  predicate NamedIn(captures: seq<string>, t: string) {
    exists i :: 0 <= i < |captures| && TypeName(captures[i]) == t
  }

  /** Some side of some pair in `pairs` has type name `t`. */
  predicate NamedInPairs(pairs: seq<Mismatch>, t: string) {
    exists k :: 0 <= k < |pairs| && (TypeName(pairs[k].expected) == t || TypeName(pairs[k].found) == t)
  }

  /** The loop over the "method not found" captures. */
  function InsertTypeNames(types: set<string>, captures: seq<string>): (r: set<string>)
    ensures forall t :: t in r <==> t in types || NamedIn(captures, t)
    decreases |captures|
  {
    if captures == [] then types
    else
      assert forall i :: 1 <= i < |captures| ==> captures[1..][i - 1] == captures[i];
      InsertTypeNames(types + {TypeName(captures[0])}, captures[1..])
  }

  /** The loop over the "expected/found" captures: both sides are recorded. */
  function InsertPairNames(types: set<string>, pairs: seq<Mismatch>): (r: set<string>)
    ensures forall t :: t in r <==> t in types || NamedInPairs(pairs, t)
    decreases |pairs|
  {
    if pairs == [] then types
    else
      assert forall k :: 1 <= k < |pairs| ==> pairs[1..][k - 1] == pairs[k];
      InsertPairNames(types + {TypeName(pairs[0].expected), TypeName(pairs[0].found)}, pairs[1..])
  }

  /** The set `types` of the program. */
  function CollectTypes(cap: Captures): set<string> {
    InsertPairNames(InsertTypeNames({}, cap.methodNotFound), cap.mismatches)
  }

  /** The loop over the macro captures. */
  function InsertMacros(macros: set<string>, captures: seq<string>): (r: set<string>)
    ensures forall x :: x in r <==> x in macros || x in captures
    decreases |captures|
  {
    if captures == [] then macros
    else InsertMacros(macros + {captures[0]}, captures[1..])
  }

  /** The set `macros` of the program. */
  function CollectMacros(cap: Captures): set<string> {
    InsertMacros({}, cap.macroOrigins)
  }

  /** Every recorded type is a captured type cut before its first '<'
      (a capture without '<' whole); every captured type, of either kind
      and either side of a pair, is recorded; nothing else is. */
  lemma CollectTypesSpec(cap: Captures, t: string)
    ensures t in CollectTypes(cap) <==> NamedIn(cap.methodNotFound, t) || NamedInPairs(cap.mismatches, t)
    ensures t in CollectTypes(cap) ==> '<' !in t
  {
  }

  /** Each side of each expected/found pair is recorded by its bare name. */
  lemma PairSidesRecorded(cap: Captures, k: nat)
    requires k < |cap.mismatches|
    ensures TypeName(cap.mismatches[k].expected) in CollectTypes(cap)
    ensures TypeName(cap.mismatches[k].found) in CollectTypes(cap)
  {
    assert NamedInPairs(cap.mismatches, TypeName(cap.mismatches[k].expected));
    assert NamedInPairs(cap.mismatches, TypeName(cap.mismatches[k].found));
  }

  // ---------------------------------------------------------------------
  // The reasons map

  /** `relevant_files`: each path with the reasons it is relevant. */
  type Relevant = map<string, set<string>>

  /** The reasons recorded for `p` so far (none if it has no entry). */
  function Reasons(m: Relevant, p: string): set<string> {
    if p in m then m[p] else {}
  }

  /** `m2` keeps every entry of `m` and every reason in it. */
  predicate Grows(m: Relevant, m2: Relevant) {
    forall p :: p in m ==> p in m2 && m[p] <= m2[p]
  }

  /** No entry is empty: an entry is only made to hold a reason. */
  predicate NoEmptyEntry(m: Relevant) {
    forall p :: p in m ==> m[p] != {}
  }

  /** `entry(p).or_insert_with(HashSet::new).insert(reason)`. */
  function Record(m: Relevant, p: string, reason: string): (r: Relevant)
    ensures Grows(m, r)
    ensures NoEmptyEntry(m) ==> NoEmptyEntry(r)
    ensures forall q :: q in r <==> q in m || q == p
    ensures forall q :: Reasons(r, q) == if q == p then Reasons(m, q) + {reason} else Reasons(m, q)
  {
    m[p := Reasons(m, p) + {reason}]
  }

  /** Recording every reason of `rs` for `p`, in any order; no entry is made
      when there is none. */
  function AddReasons(m: Relevant, p: string, rs: set<string>): (r: Relevant)
    ensures Grows(m, r)
    ensures NoEmptyEntry(m) ==> NoEmptyEntry(r)
    ensures forall q :: q in r <==> q in m || (q == p && rs != {})
    ensures forall q :: Reasons(r, q) == if q == p then Reasons(m, q) + rs else Reasons(m, q)
  {
    if rs == {} then m else m[p := Reasons(m, p) + rs]
  }

  /** Two maps with the same entries and the same reasons are one map. */
  lemma SameReasons(m1: Relevant, m2: Relevant)
    requires forall q :: q in m1 <==> q in m2
    requires forall q :: Reasons(m1, q) == Reasons(m2, q)
    ensures m1 == m2
  {
    forall q | q in m1 ensures m1[q] == m2[q] {
      assert Reasons(m1, q) == Reasons(m2, q);
    }
  }

  /** Adding two sets of reasons one after the other adds their union. */
  lemma AddReasonsTwice(m: Relevant, p: string, a: set<string>, b: set<string>)
    ensures AddReasons(AddReasons(m, p, a), p, b) == AddReasons(m, p, a + b)
  {
    SameReasons(AddReasons(AddReasons(m, p, a), p, b), AddReasons(m, p, a + b));
  }

  // ---------------------------------------------------------------------
  // Direct references

  const DirectReason: string := "directly referenced"

  /** A path under the cargo registry. */
  predicate InRegistry(p: string) {
    Contains(p, ".cargo/registry")
  }

  /** The loop over the `-->` captures: only registry paths are recorded. */
  function DirectRefs(m: Relevant, paths: seq<string>): (r: Relevant)
    ensures Grows(m, r)
    ensures NoEmptyEntry(m) ==> NoEmptyEntry(r)
    ensures forall q :: q in r <==> q in m || (q in paths && InRegistry(q))
    ensures forall q :: Reasons(r, q) == Reasons(m, q) + (if q in paths && InRegistry(q) then {DirectReason} else {})
    decreases |paths|
  {
    if paths == [] then m
    else
      var p := paths[0];
      assert forall q :: q in paths <==> q == p || q in paths[1..];
      DirectRefs(if InRegistry(p) then Record(m, p, DirectReason) else m, paths[1..])
  }

  // ---------------------------------------------------------------------
  // The match rule for one dependency source file

  function TypeReason(t: string): string {
    "type " + t
  }

  function MacroReason(name: string): string {
    "macro " + name
  }

  /** The lowercased file name or the lowercased contents contain the
      lowercased type name. */
  predicate TypeHit(fileName: string, contents: string, t: string) {
    Contains(Lower(fileName), Lower(t)) || Contains(Lower(contents), Lower(t))
  }

  /** The lowercased contents contain `macro_rules! ` and the macro name as
      captured (not lowercased). */
  predicate MacroHit(contents: string, name: string) {
    Contains(Lower(contents), "macro_rules! " + name)
  }

  /** The three kinds of reason never coincide, and each names what it
      was recorded for. */
  lemma ReasonsDistinct(t: string, t2: string, name: string, name2: string)
    ensures TypeReason(t) == TypeReason(t2) <==> t == t2
    ensures MacroReason(name) == MacroReason(name2) <==> name == name2
    ensures TypeReason(t) != MacroReason(name)
    ensures TypeReason(t) != DirectReason && MacroReason(name) != DirectReason
  {
    assert TypeReason(t)[0] == 't' && MacroReason(name)[0] == 'm' && DirectReason[0] == 'd';
    if TypeReason(t) == TypeReason(t2) {
      assert t == TypeReason(t)[5..] == TypeReason(t2)[5..] == t2;
    }
    if MacroReason(name) == MacroReason(name2) {
      assert name == MacroReason(name)[6..] == MacroReason(name2)[6..] == name2;
    }
  }

  function TypeReasons(fileName: string, contents: string, types: set<string>): set<string> {
    set t | t in types && TypeHit(fileName, contents, t) :: TypeReason(t)
  }

  function MacroReasons(contents: string, macros: set<string>): set<string> {
    set name | name in macros && MacroHit(contents, name) :: MacroReason(name)
  }

  /** The reasons one examined file is recorded with. */
  function FileReasons(fileName: string, contents: string, types: set<string>, macros: set<string>): set<string> {
    TypeReasons(fileName, contents, types) + MacroReasons(contents, macros)
  }

  /** A file is recorded with `type T` exactly for the recorded types it
      hits, with `macro M` exactly for the recorded macros it defines, and
      with nothing else. */
  lemma FileReasonsSpec(fileName: string, contents: string, types: set<string>, macros: set<string>,
                        t: string, name: string)
    ensures TypeReason(t) in FileReasons(fileName, contents, types, macros) <==>
              t in types && TypeHit(fileName, contents, t)
    ensures MacroReason(name) in FileReasons(fileName, contents, types, macros) <==>
              name in macros && MacroHit(contents, name)
    ensures DirectReason !in FileReasons(fileName, contents, types, macros)
  {
    forall t2 | t2 in types ensures TypeReason(t2) != MacroReason(name) && (TypeReason(t2) == TypeReason(t) <==> t2 == t)
                            && TypeReason(t2) != DirectReason {
      ReasonsDistinct(t2, t, name, name);
    }
    forall n2 | n2 in macros ensures MacroReason(n2) != TypeReason(t) && (MacroReason(n2) == MacroReason(name) <==> n2 == name)
                             && MacroReason(n2) != DirectReason {
      ReasonsDistinct(t, t, n2, name);
    }
  }

  /** A macro name with an upper-case letter is never found, since it is
      searched for in lowercased text. */
  lemma UppercaseMacroNeverMatches(contents: string, name: string, k: nat)
    requires k < |name| && IsUpper(name[k])
    ensures !MacroHit(contents, name)
  {
    var n := "macro_rules! " + name;
    assert n[13 + k] == name[k];
    NoUpperInLower(contents, n, 13 + k);
  }

  /** A capture such as "<T>" records the empty type name, which every
      file hits. */
  lemma EmptyTypeMatchesEveryFile(fileName: string, contents: string)
    ensures TypeName("<" + contents) == []
    ensures TypeHit(fileName, contents, [])
  {
    TypeNameOfGeneric([], contents);
    assert [] + "<" + contents == "<" + contents;
    assert OccursAt(Lower(fileName), Lower([]), 0);
  }

  // ---------------------------------------------------------------------
  // The per-file loops, in the iteration order of the sets

  /** `for type_name in &types`, over an enumeration `ts` of the set. */
  function TypeLoop(m: Relevant, p: string, fileName: string, contents: string, ts: seq<string>): Relevant
    decreases |ts|
  {
    if ts == [] then m
    else
      var t := ts[0];
      TypeLoop(if TypeHit(fileName, contents, t) then Record(m, p, TypeReason(t)) else m, p, fileName, contents, ts[1..])
  }

  /** `for macro_name in macros.iter()`, over an enumeration `ms` of the set. */
  function MacroLoop(m: Relevant, p: string, contents: string, ms: seq<string>): Relevant
    decreases |ms|
  {
    if ms == [] then m
    else
      var name := ms[0];
      MacroLoop(if MacroHit(contents, name) then Record(m, p, MacroReason(name)) else m, p, contents, ms[1..])
  }

  /** Whatever the order of `ts`, the type loop adds the reasons of the types it holds. */
  lemma {:induction false} TypeLoopAnyOrder(m: Relevant, p: string, fileName: string, contents: string, ts: seq<string>)
    ensures TypeLoop(m, p, fileName, contents, ts) ==
            AddReasons(m, p, set t | t in ts && TypeHit(fileName, contents, t) :: TypeReason(t))
    decreases |ts|
  {
    var hits := set t | t in ts && TypeHit(fileName, contents, t) :: TypeReason(t);
    if ts == [] {
      assert hits == {};
    } else {
      var t := ts[0];
      var rest := set t2 | t2 in ts[1..] && TypeHit(fileName, contents, t2) :: TypeReason(t2);
      var first: set<string> := if TypeHit(fileName, contents, t) then {TypeReason(t)} else {};
      var m1 := if TypeHit(fileName, contents, t) then Record(m, p, TypeReason(t)) else m;
      assert m1 == AddReasons(m, p, first);
      TypeLoopAnyOrder(m1, p, fileName, contents, ts[1..]);
      AddReasonsTwice(m, p, first, rest);
      assert forall t2 :: t2 in ts <==> t2 == t || t2 in ts[1..];
      assert hits == first + rest;
    }
  }

  /** Whatever the order of `ms`, the macro loop adds the reasons of the macros it holds. */
  lemma {:induction false} MacroLoopAnyOrder(m: Relevant, p: string, contents: string, ms: seq<string>)
    ensures MacroLoop(m, p, contents, ms) ==
            AddReasons(m, p, set name | name in ms && MacroHit(contents, name) :: MacroReason(name))
    decreases |ms|
  {
    var hits := set name | name in ms && MacroHit(contents, name) :: MacroReason(name);
    if ms == [] {
      assert hits == {};
    } else {
      var name := ms[0];
      var rest := set n2 | n2 in ms[1..] && MacroHit(contents, n2) :: MacroReason(n2);
      var first: set<string> := if MacroHit(contents, name) then {MacroReason(name)} else {};
      var m1 := if MacroHit(contents, name) then Record(m, p, MacroReason(name)) else m;
      assert m1 == AddReasons(m, p, first);
      MacroLoopAnyOrder(m1, p, contents, ms[1..]);
      AddReasonsTwice(m, p, first, rest);
      assert forall n2 :: n2 in ms <==> n2 == name || n2 in ms[1..];
      assert hits == first + rest;
    }
  }

  /** `s` lists exactly the members of `x` (in some order). */
  predicate Enumerates(s: seq<string>, x: set<string>) {
    (forall e :: e in s ==> e in x) && (forall e :: e in x ==> e in s)
  }

  /** The body of the registry loop for one examined file: the type loop,
      then the macro loop, over any enumerations of the two sets, records
      exactly the file's reasons. */
  lemma FileLoopsAnyOrder(m: Relevant, p: string, fileName: string, contents: string,
                          types: set<string>, ts: seq<string>, macros: set<string>, ms: seq<string>)
    requires Enumerates(ts, types) && Enumerates(ms, macros)
    ensures MacroLoop(TypeLoop(m, p, fileName, contents, ts), p, contents, ms) ==
            AddReasons(m, p, FileReasons(fileName, contents, types, macros))
  {
    TypeLoopAnyOrder(m, p, fileName, contents, ts);
    var m1 := TypeLoop(m, p, fileName, contents, ts);
    MacroLoopAnyOrder(m1, p, contents, ms);
    assert (set t | t in ts && TypeHit(fileName, contents, t) :: TypeReason(t)) == TypeReasons(fileName, contents, types);
    assert (set name | name in ms && MacroHit(contents, name) :: MacroReason(name)) == MacroReasons(contents, macros);
    AddReasonsTwice(m, p, TypeReasons(fileName, contents, types), MacroReasons(contents, macros));
  }

  // ---------------------------------------------------------------------
  // The registry scan

  /** A directory yielded by the walk of the registry `src` directory (to
      depth 2), with the paths the walk of its subtree yields. */
  datatype RegistryDir = RegistryDir(name: string, subtree: seq<string>)

  /** A walked path that the match rule looks at: a regular file with
      extension `rs`. */
  predicate Examined(fs: Fs, p: string) {
    IsFile(fs, p) && IsRustSource(p)
  }

  /** The reasons a walked path is recorded with. */
  function Hits(fs: Fs, types: set<string>, macros: set<string>, p: string): set<string> {
    if Examined(fs, p) then FileReasons(FileName(p).value, ContentsOrEmpty(fs, p), types, macros) else {}
  }

  /** The loop over the walk of one crate directory. */
  function ScanFiles(m: Relevant, fs: Fs, types: set<string>, macros: set<string>, files: seq<string>): (r: Relevant)
    ensures Grows(m, r)
    ensures NoEmptyEntry(m) ==> NoEmptyEntry(r)
    ensures forall q :: q in r <==> q in m || (q in files && Hits(fs, types, macros, q) != {})
    ensures forall q :: Reasons(r, q) == Reasons(m, q) + (if q in files then Hits(fs, types, macros, q) else {})
    decreases |files|
  {
    if files == [] then m
    else
      var p := files[0];
      assert forall q :: q in files <==> q == p || q in files[1..];
      ScanFiles(AddReasons(m, p, Hits(fs, types, macros, p)), fs, types, macros, files[1..])
  }

  /** `q` lies in the walk of some directory named by a used crate id. */
  predicate Searched(ids: set<string>, dirs: seq<RegistryDir>, q: string) {
    exists i :: 0 <= i < |dirs| && dirs[i].name in ids && q in dirs[i].subtree
  }

  lemma SearchedCons(ids: set<string>, dirs: seq<RegistryDir>)
    requires dirs != []
    ensures forall q :: Searched(ids, dirs, q) <==>
              (dirs[0].name in ids && q in dirs[0].subtree) || Searched(ids, dirs[1..], q)
  {
    forall q | Searched(ids, dirs, q) ensures (dirs[0].name in ids && q in dirs[0].subtree) || Searched(ids, dirs[1..], q) {
      var i :| 0 <= i < |dirs| && dirs[i].name in ids && q in dirs[i].subtree;
      if i > 0 {
        assert dirs[1..][i - 1] == dirs[i];
      }
    }
    forall q | Searched(ids, dirs[1..], q) ensures Searched(ids, dirs, q) {
      var i :| 0 <= i < |dirs[1..]| && dirs[1..][i].name in ids && q in dirs[1..][i].subtree;
      assert dirs[i + 1] == dirs[1..][i];
    }
  }

  /** The loop over the registry walk: only directories whose name is a used
      `name-version` id are walked into. */
  function ScanRegistry(m: Relevant, fs: Fs, types: set<string>, macros: set<string>,
                        ids: set<string>, dirs: seq<RegistryDir>): (r: Relevant)
    ensures Grows(m, r)
    ensures NoEmptyEntry(m) ==> NoEmptyEntry(r)
    ensures forall q :: q in r <==> q in m || (Searched(ids, dirs, q) && Hits(fs, types, macros, q) != {})
    ensures forall q :: Reasons(r, q) == Reasons(m, q) + (if Searched(ids, dirs, q) then Hits(fs, types, macros, q) else {})
    decreases |dirs|
  {
    if dirs == [] then m
    else
      var d := dirs[0];
      SearchedCons(ids, dirs);
      var m1 := if d.name in ids then ScanFiles(m, fs, types, macros, d.subtree) else m;
      ScanRegistry(m1, fs, types, macros, ids, dirs[1..])
  }

  // ---------------------------------------------------------------------
  // The whole correlation

  /** The dependency section, given the used crate ids (`None` when
      `cargo tree` could not be had): nothing outside a Rust project;
      otherwise the reasons map, `None` when it is empty (the section is not
      printed), or the `cargo tree` failure that aborts the run. `dirs` is
      the registry walk. */
  function CorrelateIds(cap: Captures, fs: Fs, cwd: string, ids: Option<set<string>>,
                        dirs: seq<RegistryDir>): (r: Result<Option<Relevant>>)
    ensures !IsRustProject(fs, cwd) ==> r == Ok(None)
    ensures r.Err? <==> IsRustProject(fs, cwd) && ids.None?
    ensures r.Err? ==> r.failure == CargoTree
    ensures r.Ok? && r.value.Some? ==> r.value.value != map[] && NoEmptyEntry(r.value.value)
  {
    var direct := DirectRefs(map[], cap.direct);
    if !IsRustProject(fs, cwd) then Ok(None)
    else match ids
      case None => Err(CargoTree)
      case Some(used) =>
        var found := ScanRegistry(direct, fs, CollectTypes(cap), CollectMacros(cap), used, dirs);
        if found == map[] then Ok(None) else Ok(Some(found))
  }

  /** The ids `get_used_crate_versions` returns for the output of
      `cargo tree` (`None` when it could not be run or was not UTF-8). */
  function CrateIds(cargoTree: Option<string>): Option<set<string>> {
    match cargoTree
    case None => None
    case Some(out) => Some(UsedCrateVersionsAsWritten(out))
  }

  /** The same ids, read with the corrected line parser. */
  function CrateIdsCorrected(cargoTree: Option<string>): Option<set<string>> {
    match cargoTree
    case None => None
    case Some(out) => Some(UsedCrateVersions(out))
  }

  /** `print_relevant_dependency_files`, with `cargo tree` read as the
      program reads it. */
  function Correlate(cap: Captures, fs: Fs, cwd: string, cargoTree: Option<string>,
                     dirs: seq<RegistryDir>): (r: Result<Option<Relevant>>)
    ensures !IsRustProject(fs, cwd) ==> r == Ok(None)
    ensures r.Err? <==> IsRustProject(fs, cwd) && cargoTree.None?
    ensures r.Err? ==> r.failure == CargoTree
    ensures r.Ok? && r.value.Some? ==> r.value.value != map[] && NoEmptyEntry(r.value.value)
  {
    CorrelateIds(cap, fs, cwd, CrateIds(cargoTree), dirs)
  }

  /** The same section, with `cargo tree` read by the corrected parser. */
  function CorrelateCorrected(cap: Captures, fs: Fs, cwd: string, cargoTree: Option<string>,
                              dirs: seq<RegistryDir>): (r: Result<Option<Relevant>>)
    ensures !IsRustProject(fs, cwd) ==> r == Ok(None)
    ensures r.Err? <==> IsRustProject(fs, cwd) && cargoTree.None?
    ensures r.Err? ==> r.failure == CargoTree
    ensures r.Ok? && r.value.Some? ==> r.value.value != map[] && NoEmptyEntry(r.value.value)
  {
    CorrelateIds(cap, fs, cwd, CrateIdsCorrected(cargoTree), dirs)
  }

  /** The reasons the section gives a path, stated directly: `directly
      referenced` for a captured registry path, and the hits of every
      examined file in the walk of a used crate's directory. */
  function Expected(cap: Captures, fs: Fs, ids: set<string>, dirs: seq<RegistryDir>, p: string): set<string> {
    (if p in cap.direct && InRegistry(p) then {DirectReason} else {}) +
    (if Searched(ids, dirs, p) then Hits(fs, CollectTypes(cap), CollectMacros(cap), p) else {})
  }

  /** In a Rust project, with the used ids known, the section is printed
      exactly when some path has a reason, and then it gives every path
      exactly its expected reasons; the direct references collected first
      all survive the registry scan. */
  lemma CorrelateIdsSpec(cap: Captures, fs: Fs, cwd: string, ids: set<string>, dirs: seq<RegistryDir>)
    requires IsRustProject(fs, cwd)
    ensures CorrelateIds(cap, fs, cwd, Some(ids), dirs).Ok?
    ensures CorrelateIds(cap, fs, cwd, Some(ids), dirs).value.Some? <==>
              exists p :: Expected(cap, fs, ids, dirs, p) != {}
    ensures CorrelateIds(cap, fs, cwd, Some(ids), dirs).value.Some? ==>
              var m := CorrelateIds(cap, fs, cwd, Some(ids), dirs).value.value;
              && Grows(DirectRefs(map[], cap.direct), m)
              && (forall p :: p in m <==> Expected(cap, fs, ids, dirs, p) != {})
              && (forall p :: Reasons(m, p) == Expected(cap, fs, ids, dirs, p))
  {
    var direct := DirectRefs(map[], cap.direct);
    var found := ScanRegistry(direct, fs, CollectTypes(cap), CollectMacros(cap), ids, dirs);
    assert forall p :: Reasons(found, p) == Expected(cap, fs, ids, dirs, p);
    if found != map[] {
      var p :| p in found;
      assert Expected(cap, fs, ids, dirs, p) != {};
    }
  }

  /** What the program prints, in a Rust project whose `cargo tree` ran:
      the reasons of the crates its line regex reads from the output. */
  lemma CorrelateSpec(cap: Captures, fs: Fs, cwd: string, out: string, dirs: seq<RegistryDir>)
    requires IsRustProject(fs, cwd)
    ensures Correlate(cap, fs, cwd, Some(out), dirs).Ok?
    ensures Correlate(cap, fs, cwd, Some(out), dirs).value.Some? <==>
              exists p :: Expected(cap, fs, UsedCrateVersionsAsWritten(out), dirs, p) != {}
    ensures Correlate(cap, fs, cwd, Some(out), dirs).value.Some? ==>
              var m := Correlate(cap, fs, cwd, Some(out), dirs).value.value;
              && Grows(DirectRefs(map[], cap.direct), m)
              && (forall p :: Reasons(m, p) == Expected(cap, fs, UsedCrateVersionsAsWritten(out), dirs, p))
  {
    CorrelateIdsSpec(cap, fs, cwd, UsedCrateVersionsAsWritten(out), dirs);
  }

  /** The same with the corrected parser: every crate on a dependency line,
      at any depth, is searched. */
  lemma CorrelateCorrectedSpec(cap: Captures, fs: Fs, cwd: string, out: string, dirs: seq<RegistryDir>)
    requires IsRustProject(fs, cwd)
    ensures CorrelateCorrected(cap, fs, cwd, Some(out), dirs).Ok?
    ensures CorrelateCorrected(cap, fs, cwd, Some(out), dirs).value.Some? <==>
              exists p :: Expected(cap, fs, UsedCrateVersions(out), dirs, p) != {}
    ensures CorrelateCorrected(cap, fs, cwd, Some(out), dirs).value.Some? ==>
              var m := CorrelateCorrected(cap, fs, cwd, Some(out), dirs).value.value;
              && Grows(DirectRefs(map[], cap.direct), m)
              && (forall p :: Reasons(m, p) == Expected(cap, fs, UsedCrateVersions(out), dirs, p))
  {
    CorrelateIdsSpec(cap, fs, cwd, UsedCrateVersions(out), dirs);
  }

  /** A path is `directly referenced` exactly when the output points at it
      and it lies under the cargo registry. */
  lemma DirectlyReferenced(cap: Captures, fs: Fs, ids: set<string>, dirs: seq<RegistryDir>, p: string)
    ensures DirectReason in Expected(cap, fs, ids, dirs, p) <==> p in cap.direct && InRegistry(p)
  {
    if Examined(fs, p) {
      FileReasonsSpec(FileName(p).value, ContentsOrEmpty(fs, p), CollectTypes(cap), CollectMacros(cap), [], []);
    }
  }

  /** A path gets `type T` exactly when it is a `.rs` file in the walk of a
      used crate and its lowercased name or contents contain a recorded
      type, lowercased. */
  lemma TypeReasonExact(cap: Captures, fs: Fs, ids: set<string>, dirs: seq<RegistryDir>, p: string, t: string)
    ensures TypeReason(t) in Expected(cap, fs, ids, dirs, p) <==>
              && Searched(ids, dirs, p) && Examined(fs, p) && t in CollectTypes(cap)
              && TypeHit(FileName(p).value, ContentsOrEmpty(fs, p), t)
  {
    ReasonsDistinct(t, t, [], []);
    if Examined(fs, p) {
      FileReasonsSpec(FileName(p).value, ContentsOrEmpty(fs, p), CollectTypes(cap), CollectMacros(cap), t, []);
    }
  }

  /** A path gets `macro M` exactly when it is a `.rs` file in the walk of a
      used crate whose lowercased contents define a recorded macro by the
      name as captured. */
  lemma MacroReasonExact(cap: Captures, fs: Fs, ids: set<string>, dirs: seq<RegistryDir>, p: string, name: string)
    ensures MacroReason(name) in Expected(cap, fs, ids, dirs, p) <==>
              && Searched(ids, dirs, p) && Examined(fs, p) && name in cap.macroOrigins
              && MacroHit(ContentsOrEmpty(fs, p), name)
  {
    ReasonsDistinct([], [], name, name);
    if Examined(fs, p) {
      FileReasonsSpec(FileName(p).value, ContentsOrEmpty(fs, p), CollectTypes(cap), CollectMacros(cap), [], name);
    }
  }
}

=== FILE: filesystem.dfy ===
/** The filesystem as the program sees it: what reading a path yields, and
    the `Cargo.toml` test of `is_rust_project`. */
module FileSystem {
  import opened Paths

  /** What is found at a path.
      `Text`: a regular file whose contents are valid UTF-8;
      `Binary`: a regular file whose contents are not;
      `Unreadable`: a regular file that `read_to_string` fails on for another reason;
      `NotRegular`: a directory or any other non-file. */
  datatype Node = Text(contents: string) | Binary | Unreadable | NotRegular

  type Fs = map<Path, Node>

  /** `Path::exists`. */
  predicate Exists(fs: Fs, s: string) {
    Components(s) in fs
  }

  /** `Path::is_file`, and the walker's `file_type().is_file()`. */
  predicate IsFile(fs: Fs, s: string) {
    Exists(fs, s) && fs[Components(s)] != NotRegular
  }

  function NodeAt(fs: Fs, s: string): Node
    requires Exists(fs, s)
  {
    fs[Components(s)]
  }

  /** `read_to_string(path).unwrap_or_default()`. */
  function ContentsOrEmpty(fs: Fs, s: string): (r: string)
    ensures Exists(fs, s) && NodeAt(fs, s).Text? ==> r == NodeAt(fs, s).contents
    ensures !(Exists(fs, s) && NodeAt(fs, s).Text?) ==> r == []
  {
    if Exists(fs, s) && NodeAt(fs, s).Text? then NodeAt(fs, s).contents else []
  }

  /** `dir` (the first `k` parts of it) joined with "Cargo.toml" exists. */
  predicate ManifestAt(fs: Fs, dir: Path, k: nat)
    requires k <= |dir.parts|
  {
    Path(dir.absolute, dir.parts[..k] + ["Cargo.toml"]) in fs
  }

  /** The loop of `is_rust_project`: `dir`, then each parent in turn, until
      one holds a `Cargo.toml` (of any kind) or there is no parent left. */
  function HasManifestAbove(fs: Fs, dir: Path): (r: bool)
    ensures r <==> exists k :: 0 <= k <= |dir.parts| && ManifestAt(fs, dir, k)
    decreases |dir.parts|
  {
    var n := |dir.parts|;
    assert dir.parts[..n] == dir.parts;
    if Path(dir.absolute, dir.parts + ["Cargo.toml"]) in fs then
      assert ManifestAt(fs, dir, n);
      true
    else if n == 0 then false
    else
      var parent := Path(dir.absolute, dir.parts[..n - 1]);
      assert forall k :: 0 <= k <= n - 1 ==> parent.parts[..k] == dir.parts[..k];
      assert forall k :: 0 <= k <= n - 1 ==> (ManifestAt(fs, parent, k) <==> ManifestAt(fs, dir, k));
      HasManifestAbove(fs, parent)
  }

  /** `is_rust_project(cwd)`. */
  predicate IsRustProject(fs: Fs, cwd: string) {
    HasManifestAbove(fs, Components(cwd))
  }
}

=== FILE: grep.dfy ===
/** The `--grep` option: how a pattern is classified and what it matches. */
module Grep {
  import opened Strings
  import opened Outcomes

  /** The regex crate, whose semantics this model does not look inside:
      whether a pattern compiles, and whether a compiled pattern matches a text. */
  datatype RegexEngine = RegexEngine(compiles: string -> bool, isMatch: (string, string) -> bool)

  /** A compiled grep pattern: a raw regex, or a case-insensitive literal
      (`(?i)` followed by the escaped text). */
  datatype Matcher = Raw(regex: string) | Literal(needle: string)

  /** At least two characters, the first and the last a '/'. */
  predicate SlashDelimited(t: string) {
    |t| >= 2 && t[0] == '/' && t[|t| - 1] == '/'
  }

  /** The text between the delimiting slashes. */
  function Inner(t: string): string
    requires |t| >= 2
  {
    t[1..|t| - 1]
  }

  /** The classifier as the program writes it: a trimmed pattern that
      starts and ends with '/' is sliced `[1..len - 1]`, and a lone "/"
      (which does both) makes that slice run backwards. */
  function CompileGrepAsWritten(e: RegexEngine, pattern: string): (r: Result<Matcher>)
    ensures r == Err(SliceOutOfRange) <==> Trim(pattern) == "/"
  {
    var t := Trim(pattern);
    if |t| > 0 && t[0] == '/' && t[|t| - 1] == '/' then
      if |t| < 2 then Err(SliceOutOfRange)
      else if e.compiles(Inner(t)) then Ok(Raw(Inner(t)))
      else Err(InvalidRegex(Inner(t)))
    else Ok(Literal(t))
  }

  /** The classifier with the delimiters required to be two characters:
      a lone "/" is searched for as a literal. */
  function CompileGrep(e: RegexEngine, pattern: string): (r: Result<Matcher>)
    ensures r.Err? ==> SlashDelimited(Trim(pattern)) && r == Err(InvalidRegex(Inner(Trim(pattern))))
    ensures r.Ok? && r.value.Literal? ==> r.value.needle == Trim(pattern)
  {
    var t := Trim(pattern);
    if SlashDelimited(t) then
      if e.compiles(Inner(t)) then Ok(Raw(Inner(t))) else Err(InvalidRegex(Inner(t)))
    else Ok(Literal(t))
  }

  /** `regex.is_match(contents)`. */
  function Matches(e: RegexEngine, m: Matcher, text: string): bool {
    match m
    case Raw(r) => e.isMatch(r, text)
    case Literal(t) => Contains(Lower(text), Lower(t))
  }

  /** A regex wrapped in slashes, with any whitespace around it, compiles
      to that very regex. */
  lemma RawPatternRoundTrip(e: RegexEngine, before: string, regex: string, after: string)
    requires AllWhitespace(before) && AllWhitespace(after)
    ensures CompileGrep(e, before + "/" + regex + "/" + after) ==
            (if e.compiles(regex) then Ok(Raw(regex)) else Err(InvalidRegex(regex)))
  {
    var core := "/" + regex + "/";
    assert before + "/" + regex + "/" + after == before + core + after;
    TrimUnique(before, core, after);
    assert Inner(core) == regex;
  }

  /** Any other pattern selects, case-insensitively, the texts that contain
      it once trimmed. */
  lemma LiteralPatternIsCaseless(e: RegexEngine, pattern: string, text: string)
    requires !SlashDelimited(Trim(pattern))
    ensures CompileGrep(e, pattern).Ok?
    ensures Matches(e, CompileGrep(e, pattern).value, text) <==>
            exists i :: OccursAtIgnoringCase(text, Trim(pattern), i)
  {
    ContainsLowerIffCaseless(text, Trim(pattern));
  }

  /** A pattern that is blank once trimmed selects every text. */
  lemma BlankPatternMatchesAll(e: RegexEngine, pattern: string, text: string)
    requires AllWhitespace(pattern)
    ensures CompileGrep(e, pattern) == Ok(Literal([]))
    ensures Matches(e, Literal([]), text)
  {
    TrimUnique(pattern, [], []);
    assert pattern + [] + [] == pattern;
    assert OccursAt(Lower(text), Lower([]), 0);
  }

  /** The program aborts on `--grep /`. */
  lemma LoneSlashPanics(e: RegexEngine)
    ensures CompileGrepAsWritten(e, "/") == Err(SliceOutOfRange)
    ensures CompileGrep(e, "/") == Ok(Literal("/"))
  {
    TrimmedIsFixed("/");
  }

  /** The corrected classifier never panics, and agrees with the program on
      every pattern but the lone slash. */
  lemma CompileGrepAgrees(e: RegexEngine, pattern: string)
    ensures CompileGrep(e, pattern) != Err(SliceOutOfRange)
    ensures Trim(pattern) != "/" ==> CompileGrepAsWritten(e, pattern) == CompileGrep(e, pattern)
  {
  }
}

=== FILE: outcomes.dfy ===
/** Optional values, results, and the ways a run of contree-cli can abort. */
module Outcomes {

  datatype Option<+T> = None | Some(value: T) {
    function GetOr(default: T): T {
      match this
      case Some(v) => v
      case None => default
    }
  }

  /** The errors the modelled passes can end a run with (write errors
      aside), plus the one panic the grep classifier can hit. */
  datatype Failure =
    | InvalidRegex(pattern: string)   // a `/.../` grep pattern the regex engine rejects
    | SliceOutOfRange                 // `&trimmed[1..0]` on a lone "/" grep pattern
    | DirectoryEntry                  // the directory walker reported an error entry
    | ReadFile(path: string)          // a regular file that could not be read for a reason other than UTF-8
    | CargoTree                       // `cargo tree` could not be run or its output was not UTF-8

  datatype Result<+T> = Ok(value: T) | Err(failure: Failure)
}

=== FILE: paths.dfy ===
/** Lexical paths: what `std::path::Path::components`, `file_name` and
    `extension` make of a path string. */
module Paths {
  import opened Strings
  import opened Outcomes

  /** A path by its components: a leading root, then the named parts.
      Empty parts (repeated or trailing '/') and "." parts are not kept,
      which is how `components()` makes "a//b/./c" and "a/b/c" the same
      path; ".." is kept, since resolving it needs the filesystem. */
  datatype Path = Path(absolute: bool, parts: seq<string>)

  predicate IsNormalPart(p: string) {
    p != [] && p != "." && '/' !in p
  }

  predicate IsNormal(path: Path) {
    forall i :: 0 <= i < |path.parts| ==> IsNormalPart(path.parts[i])
  }

  function DropEmptyAndDot(ps: seq<string>): (r: seq<string>)
    ensures forall i :: 0 <= i < |r| ==> r[i] != [] && r[i] != "."
    ensures forall i :: 0 <= i < |r| ==> r[i] in ps
    ensures (forall i :: 0 <= i < |ps| ==> ps[i] != [] && ps[i] != ".") ==> r == ps
  {
    if ps == [] then []
    else if ps[0] == [] || ps[0] == "." then DropEmptyAndDot(ps[1..])
    else [ps[0]] + DropEmptyAndDot(ps[1..])
  }

  /** The components of a path string. */
  function Components(s: string): (r: Path)
    ensures IsNormal(r)
    ensures r.absolute <==> |s| > 0 && s[0] == '/'
  {
    var ps := DropEmptyAndDot(Split(s, '/'));
    assert forall i :: 0 <= i < |ps| ==> '/' !in ps[i] by {
      forall i | 0 <= i < |ps| ensures '/' !in ps[i] {
        var j :| 0 <= j < |Split(s, '/')| && Split(s, '/')[j] == ps[i];
      }
    }
    Path(|s| > 0 && s[0] == '/', ps)
  }

  /** The canonical spelling of a path. */
  function Display(p: Path): string {
    (if p.absolute then "/" else "") + Join(p.parts, '/')
  }

  /** Reading a canonical spelling gives the path back. */
  lemma ComponentsOfDisplay(p: Path)
    requires IsNormal(p)
    ensures Components(Display(p)) == p
  {
    var j := Join(p.parts, '/');
    SplitOfJoin(p.parts);
    if p.absolute {
      var s := "/" + j;
      assert s[1..] == j;
      assert Split(s, '/') == [[]] + Split(j, '/');
    } else {
      assert Display(p) == j;
      JoinStart(p.parts);
    }
  }

  /** The parts of a normal path survive a split of their join. */
  lemma SplitOfJoin(parts: seq<string>)
    requires IsNormal(Path(false, parts))
    ensures DropEmptyAndDot(Split(Join(parts, '/'), '/')) == parts
    ensures DropEmptyAndDot([[]] + Split(Join(parts, '/'), '/')) == parts
  {
    if parts != [] {
      SplitJoin(parts, '/');
    }
  }

  /** A join of normal parts does not start with the separator. */
  lemma JoinStart(parts: seq<string>)
    requires IsNormal(Path(false, parts))
    ensures Join(parts, '/') == [] || Join(parts, '/')[0] != '/'
  {
    if |parts| > 1 {
      assert Join(parts, '/') == parts[0] + ([ '/' ] + Join(parts[1..], '/'));
      assert Join(parts, '/')[0] == parts[0][0];
    }
  }

  /** `Path::file_name`: the last part, unless there is none or it is "..". */
  function FileName(s: string): (r: Option<string>)
    ensures r.Some? ==> |Components(s).parts| > 0 && r.value == Components(s).parts[|Components(s).parts| - 1]
    ensures r.Some? ==> r.value != ".." && IsNormalPart(r.value)
    ensures r.Some? <==> |Components(s).parts| > 0 && Components(s).parts[|Components(s).parts| - 1] != ".."
  {
    var ps := Components(s).parts;
    if ps == [] || ps[|ps| - 1] == ".." then None else Some(ps[|ps| - 1])
  }

  /** Index of the last `c` in `s`. */
  function LastIndexOf(s: string, c: char): (r: Option<nat>)
    ensures r.None? ==> c !in s
    ensures r.Some? ==> r.value < |s| && s[r.value] == c && c !in s[r.value + 1..]
  {
    if s == [] then None
    else if s[|s| - 1] == c then Some(|s| - 1)
    else
      var r := LastIndexOf(s[..|s| - 1], c);
      assert s == s[..|s| - 1] + [s[|s| - 1]];
      if r.Some? then
        assert s[r.value + 1..] == s[..|s| - 1][r.value + 1..] + [s[|s| - 1]];
        r
      else r
  }

  /** `Path::extension` of a file name: the text after the last '.', where a
      name without a '.', a name whose only '.' is its first character, and
      ".." have none. */
  function Extension(name: string): Option<string> {
    if name == ".." then None
    else match LastIndexOf(name, '.')
      case None => None
      case Some(k) => if k == 0 then None else Some(name[k + 1..])
  }

  /** A file name has extension `rs` exactly when it ends in ".rs" with at
      least one character before that: "a.rs" and "..rs" do, ".rs" does not. */
  lemma RustExtension(name: string)
    ensures Extension(name) == Some("rs") <==> |name| >= 4 && name[|name| - 3..] == ".rs"
  {
    if |name| >= 4 && name[|name| - 3..] == ".rs" {
      var k := |name| - 3;
      assert name[k] == '.';
      assert name[k + 1..] == "rs";
      assert LastIndexOf(name, '.') == Some(k);
    }
    if Extension(name) == Some("rs") {
      var k := LastIndexOf(name, '.').value;
      assert name[k + 1..] == "rs";
    }
  }

  /** The walker's test for a `.git` directory anywhere on the path. */
  predicate HasGitComponent(s: string) {
    ".git" in Components(s).parts
  }

  /** `path.extension() == Some("rs")`. */
  predicate IsRustSource(s: string) {
    FileName(s).Some? && Extension(FileName(s).value) == Some("rs")
  }
}

=== FILE: project_files.dfy ===
/** `print_project_files`: the walked files that survive the `.git` and grep
    filters, then the explicitly included files. The directory walker
    itself (ignore files, hidden files, depth) is given: its output is the
    sequence of entries it yields, in order. */
module ProjectFiles {
  import opened Strings
  import opened Outcomes
  import opened Paths
  import opened FileSystem
  import opened Grep
  import opened Blocks

  /** One item the walker yields: a path, or an error. */
  datatype WalkEntry = Visited(path: string) | WalkError

  /** What a pass writes: the text on the writer, the warnings on stderr,
      and the error that stopped it, if one did (the text written before
      it stays written). */
  datatype Emission = Emission(text: string, warnings: seq<string>, failure: Option<Failure>)

  const Nothing: Emission := Emission([], [], None)

  function Stopped(f: Failure): Emission {
    Emission([], [], Some(f))
  }

  /** `first`, then `second` if `first` did not stop. */
  function Then(first: Emission, second: Emission): (r: Emission)
    ensures first.failure.Some? ==> r == first
    ensures first.failure.None? ==>
              r.text == first.text + second.text && r.warnings == first.warnings + second.warnings && r.failure == second.failure
  {
    if first.failure.Some? then first
    else Emission(first.text + second.text, first.warnings + second.warnings, second.failure)
  }

  /** What happens to one walked entry; a stop keeps what `print_file`
      wrote before its read failed. */
  datatype Step = Emit(block: string) | Skip | Stop(written: string, failure: Failure)

  function StepEmission(s: Step): Emission {
    match s
    case Emit(b) => Emission(b, [], None)
    case Skip => Nothing
    case Stop(w, f) => Emission(w, [], Some(f))
  }

  /** The loop body of the walk: not a regular file or under `.git`: skip;
      with a grep, read the file, skip it if it is binary or does not match,
      and abort on any other read error before any of its block is written;
      then print it. */
  function VisitFile(e: RegexEngine, fs: Fs, m: Option<Matcher>, p: string): Step {
    if HasGitComponent(p) || !IsFile(fs, p) then Skip
    else
      var n := NodeAt(fs, p);
      if m.Some? && n.Binary? then Skip
      else if m.Some? && n.Unreadable? then Stop([], ReadFile(p))
      else if m.Some? && n.Text? && !Matches(e, m.value, n.contents) then Skip
      else
        var b := Block(p, n);
        if b.failure.None? then Emit(b.text) else Stop(b.text, b.failure.value)
  }

  /** The walk, entry by entry; an error entry aborts it. */
  function WalkFiles(e: RegexEngine, fs: Fs, m: Option<Matcher>, walk: seq<WalkEntry>): Emission
    decreases |walk|
  {
    if walk == [] then Nothing
    else match walk[0]
      case WalkError => Stopped(DirectoryEntry)
      case Visited(p) => Then(StepEmission(VisitFile(e, fs, m, p)), WalkFiles(e, fs, m, walk[1..]))
  }

  /** The reference selection: a walked entry is printed exactly when it is
      a regular file, no component of its path is `.git`, and either there
      is no grep or the file is valid text that the grep matches. */
  predicate Selected(e: RegexEngine, fs: Fs, m: Option<Matcher>, p: string) {
    && !HasGitComponent(p)
    && IsFile(fs, p)
    && (m.None? || (NodeAt(fs, p).Text? && Matches(e, m.value, NodeAt(fs, p).contents)))
  }

  /** A path `print_file` (and the grep read) can get a body for. */
  predicate Readable(fs: Fs, p: string) {
    !IsFile(fs, p) || NodeAt(fs, p).Text? || NodeAt(fs, p).Binary?
  }

  /** A walk with no error entry and no regular file, outside `.git`, that
      fails to read. */
  predicate CleanWalk(fs: Fs, walk: seq<WalkEntry>) {
    forall i :: 0 <= i < |walk| ==> walk[i].Visited? && (HasGitComponent(walk[i].path) || Readable(fs, walk[i].path))
  }

  /** The selected walked paths, in walk order. */
  function SelectedPaths(e: RegexEngine, fs: Fs, m: Option<Matcher>, walk: seq<WalkEntry>): (r: seq<string>)
    ensures forall p :: p in r ==> Selected(e, fs, m, p) && Visited(p) in walk
    ensures forall i :: 0 <= i < |walk| && walk[i].Visited? && Selected(e, fs, m, walk[i].path) ==> walk[i].path in r
    decreases |walk|
  {
    if walk == [] then []
    else
      var rest := SelectedPaths(e, fs, m, walk[1..]);
      assert forall i :: 1 <= i < |walk| ==> walk[i] == walk[1..][i - 1];
      if walk[0].Visited? && Selected(e, fs, m, walk[0].path) then [walk[0].path] + rest else rest
  }

  /** What `print_file` writes for a path, when it is a file. */
  function Rendered(fs: Fs, p: string): string {
    if IsFile(fs, p) then Block(p, NodeAt(fs, p)).text else []
  }

  /** The blocks of `ps`, one after the other. */
  function Render(fs: Fs, ps: seq<string>): string {
    if ps == [] then [] else Rendered(fs, ps[0]) + Render(fs, ps[1..])
  }

  /** One walked path: skipped, printed as its block, or the end of the run. */
  lemma VisitFileSpec(e: RegexEngine, fs: Fs, m: Option<Matcher>, p: string)
    ensures VisitFile(e, fs, m, p).Stop? <==> !HasGitComponent(p) && !Readable(fs, p)
    ensures VisitFile(e, fs, m, p).Emit? <==> Selected(e, fs, m, p) && Readable(fs, p)
    ensures VisitFile(e, fs, m, p).Emit? ==> VisitFile(e, fs, m, p).block == Rendered(fs, p)
    ensures VisitFile(e, fs, m, p).Stop? ==>
              && VisitFile(e, fs, m, p).written == (if m.Some? then [] else Opening(p))
              && VisitFile(e, fs, m, p).failure == ReadFile(p)
  {
  }

  lemma CleanWalkCons(fs: Fs, walk: seq<WalkEntry>)
    requires walk != []
    ensures CleanWalk(fs, walk) <==>
              walk[0].Visited? && (HasGitComponent(walk[0].path) || Readable(fs, walk[0].path)) && CleanWalk(fs, walk[1..])
  {
    assert forall i :: 1 <= i < |walk| ==> walk[i] == walk[1..][i - 1];
  }

  /** The walk prints the blocks of the selected entries, in walk order,
      and stops exactly when it meets an error entry or an unreadable file. */
  lemma {:induction false} WalkFilesSpec(e: RegexEngine, fs: Fs, m: Option<Matcher>, walk: seq<WalkEntry>)
    ensures WalkFiles(e, fs, m, walk).failure.None? <==> CleanWalk(fs, walk)
    ensures WalkFiles(e, fs, m, walk).warnings == []
    ensures CleanWalk(fs, walk) ==> WalkFiles(e, fs, m, walk).text == Render(fs, SelectedPaths(e, fs, m, walk))
    decreases |walk|
  {
    if walk != [] {
      WalkFilesSpec(e, fs, m, walk[1..]);
      CleanWalkCons(fs, walk);
      if walk[0].Visited? {
        VisitFileSpec(e, fs, m, walk[0].path);
      }
    }
  }

  /** Among the walked files, a grep drops binary files; without a grep
      they are printed with the placeholder body. */
  lemma BinaryUnderGrep(e: RegexEngine, fs: Fs, m: Option<Matcher>, p: string)
    requires IsFile(fs, p) && NodeAt(fs, p) == Binary && !HasGitComponent(p)
    ensures Selected(e, fs, m, p) <==> m.None?
    ensures Rendered(fs, p) == FormatBlock(p, BinaryPlaceholder)
  {
  }

  /** With a literal grep, a walked file is printed exactly when it is a
      regular text file outside `.git` containing the trimmed pattern up to
      case. */
  lemma LiteralGrepSelection(e: RegexEngine, fs: Fs, pattern: string, p: string)
    requires !SlashDelimited(Trim(pattern))
    ensures CompileGrep(e, pattern) == Ok(Literal(Trim(pattern)))
    ensures Selected(e, fs, Some(Literal(Trim(pattern))), p) <==>
              && !HasGitComponent(p) && IsFile(fs, p) && NodeAt(fs, p).Text?
              && exists i :: OccursAtIgnoringCase(NodeAt(fs, p).contents, Trim(pattern), i)
  {
    if IsFile(fs, p) && NodeAt(fs, p).Text? {
      LiteralPatternIsCaseless(e, pattern, NodeAt(fs, p).contents);
    }
  }

  /** The warning for an included path that is missing or not a file. */
  function Warning(p: string): string {
    "Warning: Included path " + p + " does not exist or is not a file"
  }

  /** The `--include` list as clap builds it from one argument: split at
      every ',' (`value_delimiter`), each piece trimmed (`parse_pathbuf`). */
  function ParseIncludeArg(arg: string): (r: seq<string>)
    ensures |r| == |Split(arg, ',')| >= 1
    ensures forall i :: 0 <= i < |r| ==> Trimmed(r[i]) && ',' !in r[i]
    ensures forall i :: 0 <= i < |r| ==> r[i] == Trim(Split(arg, ',')[i])
  {
    var pieces := Split(arg, ',');
    seq(|pieces|, i requires 0 <= i < |pieces| =>
      var t := Trim(pieces[i]);
      assert ',' !in t by {
        var a, b :| 0 <= a <= b <= |pieces[i]| && t == pieces[i][a..b];
        assert forall c :: c in t ==> c in pieces[i];
      }
      t)
  }

  /** A list of trimmed, comma-free paths written as one argument is read
      back as that list. */
  lemma IncludeArgRoundTrip(paths: seq<string>)
    requires |paths| >= 1
    requires forall i :: 0 <= i < |paths| ==> Trimmed(paths[i]) && ',' !in paths[i]
    ensures ParseIncludeArg(Join(paths, ',')) == paths
  {
    SplitJoin(paths, ',');
    forall i | 0 <= i < |paths| ensures Trim(paths[i]) == paths[i] {
      TrimmedIsFixed(paths[i]);
    }
  }

  /** Whitespace around the paths inside the commas is dropped: paths
      written with any padding are read back as the bare paths. */
  lemma IncludeArgPadded(paths: seq<string>, before: seq<string>, after: seq<string>)
    requires |paths| >= 1 && |before| == |paths| && |after| == |paths|
    requires forall i :: 0 <= i < |paths| ==> Trimmed(paths[i]) && ',' !in paths[i]
    requires forall i :: 0 <= i < |paths| ==> AllWhitespace(before[i]) && AllWhitespace(after[i])
    ensures ParseIncludeArg(Join(seq(|paths|, i requires 0 <= i < |paths| => before[i] + paths[i] + after[i]), ','))
            == paths
  {
    var padded := seq(|paths|, i requires 0 <= i < |paths| => before[i] + paths[i] + after[i]);
    forall i | 0 <= i < |paths| ensures ',' !in padded[i] {
      assert !IsWhitespace(',');
      assert forall c :: c in padded[i] ==> c in before[i] || c in paths[i] || c in after[i];
    }
    SplitJoin(padded, ',');
    forall i | 0 <= i < |paths| ensures Trim(padded[i]) == paths[i] {
      TrimUnique(before[i], paths[i], after[i]);
    }
  }

  /** The included paths that exist and are regular files, in list order. */
  function ExistingFiles(fs: Fs, paths: seq<string>): (r: seq<string>)
    ensures forall p :: p in r <==> p in paths && IsFile(fs, p)
  {
    if paths == [] then []
    else
      var rest := ExistingFiles(fs, paths[1..]);
      assert forall p :: p in paths <==> p == paths[0] || p in paths[1..];
      if IsFile(fs, paths[0]) then [paths[0]] + rest else rest
  }

  /** The included paths that are missing or not regular files, in list
      order. */
  function MissingFiles(fs: Fs, paths: seq<string>): (r: seq<string>)
    ensures forall p :: p in r <==> p in paths && !IsFile(fs, p)
    ensures |r| + |ExistingFiles(fs, paths)| == |paths|
  {
    if paths == [] then []
    else
      var rest := MissingFiles(fs, paths[1..]);
      assert forall p :: p in paths <==> p == paths[0] || p in paths[1..];
      if IsFile(fs, paths[0]) then rest else [paths[0]] + rest
  }

  /** The warnings for the included paths that do not, in list order: one
      per missing path, naming it. */
  function MissingWarnings(fs: Fs, paths: seq<string>): (r: seq<string>)
    ensures |r| == |MissingFiles(fs, paths)|
    ensures forall i :: 0 <= i < |r| ==> r[i] == Warning(MissingFiles(fs, paths)[i])
  {
    if paths == [] then []
    else
      var rest := MissingWarnings(fs, paths[1..]);
      if IsFile(fs, paths[0]) then rest else [Warning(paths[0])] + rest
  }

  /** The include pass: each path in turn, printed if it is a regular file
      (whatever the grep and wherever it lies), otherwise warned about. */
  function IncludeFiles(fs: Fs, paths: seq<string>): Emission
  {
    if paths == [] then Nothing
    else
      var p := paths[0];
      var here :=
        if !IsFile(fs, p) then Emission([], [Warning(p)], None)
        else
          var b := Block(p, NodeAt(fs, p));
          Emission(b.text, [], b.failure);
      Then(here, IncludeFiles(fs, paths[1..]))
  }

  predicate IncludesReadable(fs: Fs, paths: seq<string>) {
    forall i :: 0 <= i < |paths| ==> Readable(fs, paths[i])
  }

  /** The include pass prints the existing files in list order, with no
      de-duplication, warns about the rest, and stops only at a regular
      file it cannot read. */
  lemma {:induction false} IncludeFilesSpec(fs: Fs, paths: seq<string>)
    ensures IncludeFiles(fs, paths).failure.None? <==> IncludesReadable(fs, paths)
    ensures IncludesReadable(fs, paths) ==>
              IncludeFiles(fs, paths) == Emission(Render(fs, ExistingFiles(fs, paths)), MissingWarnings(fs, paths), None)
  {
    if paths != [] {
      IncludeFilesSpec(fs, paths[1..]);
      assert forall i :: 1 <= i < |paths| ==> paths[i] == paths[1..][i - 1];
      assert IncludesReadable(fs, paths) <==> Readable(fs, paths[0]) && IncludesReadable(fs, paths[1..]);
    }
  }

  /** `--grep` compiled, if given, by the classifier as the program has it. */
  function CompileOption(e: RegexEngine, grep: Option<string>): Result<Option<Matcher>> {
    match grep
    case None => Ok(None)
    case Some(g) =>
      match CompileGrepAsWritten(e, g)
      case Ok(m) => Ok(Some(m))
      case Err(f) => Err(f)
  }

  /** `--grep` compiled by the corrected classifier. */
  function CompileOptionCorrected(e: RegexEngine, grep: Option<string>): Result<Option<Matcher>> {
    match grep
    case None => Ok(None)
    case Some(g) =>
      match CompileGrep(e, g)
      case Ok(m) => Ok(Some(m))
      case Err(f) => Err(f)
  }

  /** The two passes, once the pattern is compiled (or failed to). */
  function Run(e: RegexEngine, fs: Fs, compiled: Result<Option<Matcher>>, walk: seq<WalkEntry>,
               includes: Option<seq<string>>): Emission
  {
    match compiled
    case Err(f) => Stopped(f)
    case Ok(m) => Then(WalkFiles(e, fs, m, walk), IncludeFiles(fs, includes.GetOr([])))
  }

  /** `print_project_files`. */
  function ProjectFiles(e: RegexEngine, fs: Fs, grep: Option<string>, walk: seq<WalkEntry>,
                        includes: Option<seq<string>>): Emission
  {
    Run(e, fs, CompileOption(e, grep), walk, includes)
  }

  /** `print_project_files` with the corrected classifier. */
  function ProjectFilesCorrected(e: RegexEngine, fs: Fs, grep: Option<string>, walk: seq<WalkEntry>,
                                 includes: Option<seq<string>>): Emission
  {
    Run(e, fs, CompileOptionCorrected(e, grep), walk, includes)
  }

  lemma RunSpec(e: RegexEngine, fs: Fs, compiled: Result<Option<Matcher>>, walk: seq<WalkEntry>,
                includes: Option<seq<string>>)
    ensures Run(e, fs, compiled, walk, includes).failure.None? <==>
              compiled.Ok? && CleanWalk(fs, walk) && IncludesReadable(fs, includes.GetOr([]))
    ensures compiled.Err? ==> Run(e, fs, compiled, walk, includes) == Stopped(compiled.failure)
    ensures compiled.Ok? && CleanWalk(fs, walk) && IncludesReadable(fs, includes.GetOr([])) ==>
              Run(e, fs, compiled, walk, includes) ==
              Emission(Render(fs, SelectedPaths(e, fs, compiled.value, walk)) +
                       Render(fs, ExistingFiles(fs, includes.GetOr([]))),
                       MissingWarnings(fs, includes.GetOr([])), None)
  {
    if compiled.Ok? {
      WalkFilesSpec(e, fs, compiled.value, walk);
      IncludeFilesSpec(fs, includes.GetOr([]));
    }
  }

  /** A run that does not stop prints the selected walked files in walk
      order, then every included regular file in list order (a file both
      walked and included is printed twice), and warns about the other
      included paths; it stops exactly at a pattern the classifier rejects
      (a raw regex that does not compile, or a lone "/"), a walker error or
      an unreadable file, and a rejected pattern stops it before anything
      is written. */
  lemma ProjectFilesSpec(e: RegexEngine, fs: Fs, grep: Option<string>, walk: seq<WalkEntry>,
                         includes: Option<seq<string>>)
    ensures ProjectFiles(e, fs, grep, walk, includes).failure.None? <==>
              CompileOption(e, grep).Ok? && CleanWalk(fs, walk) && IncludesReadable(fs, includes.GetOr([]))
    ensures CompileOption(e, grep).Err? <==>
              grep.Some? && CompileGrepAsWritten(e, grep.value).Err?
    ensures CompileOption(e, grep).Err? ==>
              ProjectFiles(e, fs, grep, walk, includes) == Stopped(CompileGrepAsWritten(e, grep.value).failure)
    ensures CompileOption(e, grep).Ok? && CleanWalk(fs, walk) && IncludesReadable(fs, includes.GetOr([])) ==>
              ProjectFiles(e, fs, grep, walk, includes) ==
              Emission(Render(fs, SelectedPaths(e, fs, CompileOption(e, grep).value, walk)) +
                       Render(fs, ExistingFiles(fs, includes.GetOr([]))),
                       MissingWarnings(fs, includes.GetOr([])), None)
  {
    RunSpec(e, fs, CompileOption(e, grep), walk, includes);
  }

  /** `--grep /` ends the run before anything is written; the corrected
      run reads it as a literal "/". On every other pattern the two runs
      are the same. */
  lemma LoneSlashRun(e: RegexEngine, fs: Fs, grep: Option<string>, walk: seq<WalkEntry>,
                     includes: Option<seq<string>>)
    ensures grep == Some("/") ==>
              && ProjectFiles(e, fs, grep, walk, includes) == Stopped(SliceOutOfRange)
              && ProjectFilesCorrected(e, fs, grep, walk, includes) == Run(e, fs, Ok(Some(Literal("/"))), walk, includes)
    ensures grep.None? || Trim(grep.value) != "/" ==>
              ProjectFiles(e, fs, grep, walk, includes) == ProjectFilesCorrected(e, fs, grep, walk, includes)
  {
    LoneSlashPanics(e);
    if grep.Some? {
      CompileGrepAgrees(e, grep.value);
    }
  }
}

=== FILE: strings.dfy ===
/** String helpers with the semantics of the Rust standard-library calls the
    program makes: `str::trim`, ASCII `to_lowercase`, `str::contains`,
    `split('<').next()`, `split(',')` and `str::lines`. */
module Strings {

  /** Unicode White_Space: what `char::is_whitespace` (and so `str::trim`)
      and the regex class `\s` test. */
  predicate IsWhitespace(c: char) {
    || ('\t' <= c <= '\r')
    || c == ' '
    || c == '\U{85}'
    || c == '\U{A0}'
    || c == '\U{1680}'
    || ('\U{2000}' <= c <= '\U{200A}')
    || c == '\U{2028}'
    || c == '\U{2029}'
    || c == '\U{202F}'
    || c == '\U{205F}'
    || c == '\U{3000}'
  }

  predicate AllWhitespace(s: string) {
    forall i :: 0 <= i < |s| ==> IsWhitespace(s[i])
  }

  /** Neither end of `s` is whitespace: what `str::trim` leaves behind. */
  predicate Trimmed(s: string) {
    s == [] || (!IsWhitespace(s[0]) && !IsWhitespace(s[|s| - 1]))
  }

  /** How many whitespace characters `s` starts with. */
  function LeadingWhitespace(s: string): (n: nat)
    ensures n <= |s|
    ensures forall k :: 0 <= k < n ==> IsWhitespace(s[k])
    ensures n == |s| || !IsWhitespace(s[n])
  {
    if |s| > 0 && IsWhitespace(s[0]) then 1 + LeadingWhitespace(s[1..]) else 0
  }

  /** Where the whitespace `s` ends with begins. */
  function TrailingWhitespace(s: string): (n: nat)
    ensures n <= |s|
    ensures forall k :: n <= k < |s| ==> IsWhitespace(s[k])
    ensures n == 0 || !IsWhitespace(s[n - 1])
  {
    if |s| > 0 && IsWhitespace(s[|s| - 1]) then TrailingWhitespace(s[..|s| - 1]) else |s|
  }

  /** `str::trim_start`. */
  function TrimStart(s: string): (r: string)
    ensures |r| <= |s| && r == s[|s| - |r|..]
    ensures AllWhitespace(s[..|s| - |r|])
    ensures r == [] || !IsWhitespace(r[0])
  {
    s[LeadingWhitespace(s)..]
  }

  /** `str::trim`: the longest slice of `s` with whitespace stripped from both ends. */
  function Trim(s: string): (r: string)
    ensures exists i, j :: 0 <= i <= j <= |s| && r == s[i..j] && AllWhitespace(s[..i]) && AllWhitespace(s[j..])
    ensures Trimmed(r)
  {
    var i := LeadingWhitespace(s);
    var n := TrailingWhitespace(s[i..]);
    WhitespacePrefix(s, i);
    WhitespaceSuffix(s, i, n);
    TrimmedMiddle(s, i, n);
    s[i..i + n]
  }

  lemma WhitespacePrefix(s: string, i: nat)
    requires i <= |s| && forall k :: 0 <= k < i ==> IsWhitespace(s[k])
    ensures AllWhitespace(s[..i])
  {
    assert forall k :: 0 <= k < i ==> s[..i][k] == s[k];
  }

  lemma WhitespaceSuffix(s: string, i: nat, n: nat)
    requires i + n <= |s|
    requires forall k :: n <= k < |s| - i ==> IsWhitespace(s[i..][k])
    ensures AllWhitespace(s[i + n..])
  {
    WhitespaceFrom(s[i..], n);
    assert s[i..][n..] == s[i + n..];
  }

  lemma WhitespaceFrom(x: string, n: nat)
    requires n <= |x|
    requires forall k :: n <= k < |x| ==> IsWhitespace(x[k])
    ensures AllWhitespace(x[n..])
  {
    var y := x[n..];
    assert forall k :: 0 <= k < |y| ==> y[k] == x[n + k];
  }

  lemma TrimmedMiddle(s: string, i: nat, n: nat)
    requires i + n <= |s|
    requires i == |s| || !IsWhitespace(s[i])
    requires n == 0 || !IsWhitespace(s[i..][n - 1])
    ensures Trimmed(s[i..i + n])
  {
    if n > 0 {
      assert s[i..i + n][0] == s[i];
      assert s[i..i + n][n - 1] == s[i..][n - 1];
    }
  }

  /** Trimming is determined by the decomposition: whatever whitespace
      surrounds a trimmed core, `Trim` returns exactly that core. */
  lemma TrimUnique(a: string, core: string, b: string)
    requires AllWhitespace(a) && AllWhitespace(b) && Trimmed(core)
    ensures Trim(a + core + b) == core
  {
    var s := a + core + b;
    if core == [] {
      assert s == (a + b) + [];
      WhitespaceConcat(a, b);
      LeadingOf(a + b, []);
    } else {
      LeadingOf(a, core + b);
      assert s == a + (core + b);
      assert s[|a|..] == core + b;
      TrailingOf(core, b);
      assert s[|a|..|a| + |core|] == core;
    }
  }

  lemma WhitespaceConcat(a: string, b: string)
    requires AllWhitespace(a) && AllWhitespace(b)
    ensures AllWhitespace(a + b)
  {
    forall k | 0 <= k < |a + b| ensures IsWhitespace((a + b)[k]) {
      if k < |a| {
        assert (a + b)[k] == a[k];
      } else {
        assert (a + b)[k] == b[k - |a|];
      }
    }
  }

  /** Whitespace followed by a text that does not start with whitespace. */
  lemma {:induction false} LeadingOf(a: string, t: string)
    requires AllWhitespace(a) && (t == [] || !IsWhitespace(t[0]))
    ensures LeadingWhitespace(a + t) == |a|
  {
    if a != [] {
      assert (a + t)[1..] == a[1..] + t;
      LeadingOf(a[1..], t);
    }
  }

  /** A text that does not end with whitespace, followed by whitespace. */
  lemma {:induction false} TrailingOf(t: string, b: string)
    requires AllWhitespace(b) && (t == [] || !IsWhitespace(t[|t| - 1]))
    ensures TrailingWhitespace(t + b) == |t|
    decreases |b|
  {
    if b == [] {
      assert t + b == t;
    } else {
      assert (t + b)[..|t + b| - 1] == t + b[..|b| - 1];
      TrailingOf(t, b[..|b| - 1]);
    }
  }

  lemma {:induction false} TrimmedIsFixed(s: string)
    requires Trimmed(s)
    ensures Trim(s) == s
  {
    TrimUnique([], s, []);
    assert [] + s + [] == s;
  }

  /** ASCII lower-casing of one character. */
  function LowerChar(c: char): char {
    if 'A' <= c <= 'Z' then (c as int + 32) as char else c
  }

  predicate IsUpper(c: char) {
    'A' <= c <= 'Z'
  }

  /** `to_lowercase`, restricted to ASCII. */
  function Lower(s: string): (r: string)
    ensures |r| == |s|
    ensures forall i :: 0 <= i < |s| ==> r[i] == LowerChar(s[i])
    ensures forall i :: 0 <= i < |r| ==> !IsUpper(r[i])
  {
    seq(|s|, i requires 0 <= i < |s| => LowerChar(s[i]))
  }

  /** `n` sits in `h` starting at index `i`. */
  predicate OccursAt(h: string, n: string, i: int) {
    0 <= i && i + |n| <= |h| && h[i..i + |n|] == n
  }

  /** `str::contains` for a string needle. */
  function Contains(h: string, n: string): (r: bool)
    ensures r <==> exists i :: OccursAt(h, n, i)
    decreases |h|
  {
    if |n| > |h| then false
    else if h[..|n|] == n then
      assert OccursAt(h, n, 0);
      true
    else
      OccursShifted(h, n);
      Contains(h[1..], n)
  }

  /** Occurrences in `h[1..]` are the occurrences in `h` past index 0. */
  lemma OccursShifted(h: string, n: string)
    requires |h| > 0
    ensures forall i :: OccursAt(h[1..], n, i) ==> OccursAt(h, n, i + 1)
    ensures forall j :: OccursAt(h, n, j) && j > 0 ==> OccursAt(h[1..], n, j - 1)
  {
    forall i | OccursAt(h[1..], n, i) ensures OccursAt(h, n, i + 1) {
      assert h[1..][i..i + |n|] == h[i + 1..i + 1 + |n|];
    }
    forall j | OccursAt(h, n, j) && j > 0 ensures OccursAt(h[1..], n, j - 1) {
      assert h[1..][j - 1..j - 1 + |n|] == h[j..j + |n|];
    }
  }

  /** Two strings of equal length that agree up to ASCII case. */
  predicate EqualIgnoringCase(a: string, b: string) {
    |a| == |b| && forall i :: 0 <= i < |a| ==> LowerChar(a[i]) == LowerChar(b[i])
  }

  /** `n` sits in `h` at index `i`, up to ASCII case. */
  predicate OccursAtIgnoringCase(h: string, n: string, i: int) {
    0 <= i && i + |n| <= |h| && EqualIgnoringCase(h[i..i + |n|], n)
  }

  /** A case-insensitive literal search, `(?i)` followed by an escaped
      needle, is the same as searching the lower-cased haystack for the
      lower-cased needle. */
  lemma ContainsLowerIffCaseless(h: string, n: string)
    ensures Contains(Lower(h), Lower(n)) <==> exists i :: OccursAtIgnoringCase(h, n, i)
  {
    var lh, ln := Lower(h), Lower(n);
    forall i | OccursAt(lh, ln, i) ensures OccursAtIgnoringCase(h, n, i) {
      assert forall k :: 0 <= k < |n| ==> LowerChar(h[i..i + |n|][k]) == lh[i..i + |n|][k] == ln[k];
    }
    forall i | OccursAtIgnoringCase(h, n, i) ensures OccursAt(lh, ln, i) {
      assert forall k :: 0 <= k < |n| ==> lh[i..i + |n|][k] == LowerChar(h[i..i + |n|][k]) == ln[k];
    }
  }

  /** A lower-cased haystack never holds a needle with an upper-case letter. */
  lemma NoUpperInLower(h: string, n: string, k: int)
    requires 0 <= k < |n| && IsUpper(n[k])
    ensures !Contains(Lower(h), n)
  {
  }

  /** `s` split at every occurrence of `sep`, as `str::split(char)` does:
      one more piece than there are separators, empty pieces kept. */
  function Split(s: string, sep: char): (r: seq<string>)
    ensures |r| >= 1
    ensures forall i :: 0 <= i < |r| ==> sep !in r[i]
    decreases |s|
  {
    if s == [] then [[]]
    else if s[0] == sep then [[]] + Split(s[1..], sep)
    else
      var rest := Split(s[1..], sep);
      [[s[0]] + rest[0]] + rest[1..]
  }

  /** The inverse of `Split`: pieces glued with `sep` between them. */
  function Join(parts: seq<string>, sep: char): string
  {
    if parts == [] then []
    else if |parts| == 1 then parts[0]
    else parts[0] + [sep] + Join(parts[1..], sep)
  }

  lemma {:induction false} JoinSplit(s: string, sep: char)
    ensures Join(Split(s, sep), sep) == s
    decreases |s|
  {
    if s == [] {
    } else if s[0] == sep {
      JoinSplit(s[1..], sep);
      assert s == [sep] + s[1..];
    } else {
      var rest := Split(s[1..], sep);
      JoinSplit(s[1..], sep);
      if |rest| == 1 {
      } else {
        assert rest == [rest[0]] + rest[1..];
        assert Join(rest, sep) == rest[0] + [sep] + Join(rest[1..], sep);
        assert s == [s[0]] + s[1..];
      }
    }
  }

  lemma {:induction false} SplitJoin(parts: seq<string>, sep: char)
    requires |parts| >= 1
    requires forall i :: 0 <= i < |parts| ==> sep !in parts[i]
    ensures Split(Join(parts, sep), sep) == parts
    decreases |parts|, |parts[0]|
  {
    var p := parts[0];
    if p == [] {
      if |parts| == 1 {
      } else {
        assert Join(parts, sep) == [sep] + Join(parts[1..], sep);
        SplitJoin(parts[1..], sep);
        assert ([sep] + Join(parts[1..], sep))[1..] == Join(parts[1..], sep);
      }
    } else {
      var shorter := [p[1..]] + parts[1..];
      assert sep !in p[1..] by { assert forall c :: c in p[1..] ==> c in p; }
      SplitJoin(shorter, sep);
      var j := Join(parts, sep);
      if |parts| == 1 {
        assert j == p;
        assert j[1..] == Join(shorter, sep);
      } else {
        assert Join(shorter, sep) == p[1..] + [sep] + Join(parts[1..], sep);
        assert j == p + [sep] + Join(parts[1..], sep);
        assert j[1..] == Join(shorter, sep);
      }
      assert j[0] == p[0] != sep;
      assert shorter[1..] == parts[1..];
      assert [p[0]] + p[1..] == p;
    }
  }

  /** `str::lines`: split after every '\n'; each line loses its '\n' and
      then a '\r' right before it; a trailing '\n' does not start a new line. */
  function Lines(s: string): seq<string>
    decreases |s|
  {
    if s == [] then []
    else
      var k := IndexOf(s, '\n');
      if k == |s| then [s]
      else [DropCarriageReturn(s[..k])] + Lines(s[k + 1..])
  }

  function DropCarriageReturn(line: string): string {
    if |line| > 0 && line[|line| - 1] == '\r' then line[..|line| - 1] else line
  }

  /** Index of the first `c` in `s`, or `|s|` when there is none. */
  function IndexOf(s: string, c: char): (k: nat)
    ensures k <= |s|
    ensures c !in s[..k]
    ensures k < |s| ==> s[k] == c
    decreases |s|
  {
    if s == [] then 0
    else if s[0] == c then 0
    else 1 + IndexOf(s[1..], c)
  }

  /** Text made of whole lines, each ended by '\n'. */
  function Unlines(ls: seq<string>): string {
    if ls == [] then [] else ls[0] + "\n" + Unlines(ls[1..])
  }

  /** `Lines` recovers every line of `Unlines(ls)` when no line holds a
      '\n' or ends in '\r'. */
  lemma {:induction false} LinesUnlines(ls: seq<string>)
    requires forall i :: 0 <= i < |ls| ==> '\n' !in ls[i]
    requires forall i :: 0 <= i < |ls| ==> ls[i] == [] || ls[i][|ls[i]| - 1] != '\r'
    ensures Lines(Unlines(ls)) == ls
  {
    if ls != [] {
      var s := Unlines(ls);
      var l := ls[0];
      assert s == l + "\n" + Unlines(ls[1..]);
      var k := IndexOf(s, '\n');
      IndexOfFirstLine(l, Unlines(ls[1..]));
      assert s[..k] == l;
      assert s[k + 1..] == Unlines(ls[1..]);
      LinesUnlines(ls[1..]);
    }
  }

  lemma {:induction false} IndexOfFirstLine(l: string, rest: string)
    requires '\n' !in l
    ensures IndexOf(l + "\n" + rest, '\n') == |l|
  {
    if l != [] {
      assert (l + "\n" + rest)[1..] == l[1..] + "\n" + rest;
      IndexOfFirstLine(l[1..], rest);
    }
  }

  /** Text before the first `c`, the whole text if there is none:
      `s.split(c).next().unwrap()`. */
  function Before(s: string, c: char): (r: string)
    ensures c !in r
    ensures |r| <= |s| && r == s[..|r|]
    ensures |r| == |s| || s[|r|] == c
  {
    s[..IndexOf(s, c)]
  }
}
